=== FILE: README.md ===
# Centscape link preview and wishlist core, in Dafny

Centscape turns product links into wishlist entries. This project models four parts of it:

- **Preview server:**
  - `POST /api/preview` validates its input.
  - It either extracts metadata from markup the client sends, or fetches the page and streams its body under a 512 KiB cap.
  - `extractMeta` reads title, image, site name, and a price with its currency.
  - Prices come from Open Graph product tags, then schema.org JSON-LD offers, then a currency-symbol pattern in the raw markup, in that order.
- **Private-address classifier:** `isPrivateIPv4` and `isPrivateIP`, the server's textual test for loopback, private, link-local, unique-local and IPv4-mapped addresses.
- **Wishlist store:**
  - `saveItem` rejects an item whose normalised URL is already stored, and otherwise prepends it.
  - `initAndMigrate` upgrades a version 1 database to version 2.
- **URL helpers:** `normalizeUrl` drops the five `utm_*` query keys; `getDomain` and `getPath` give display fallbacks.

Everything is a pure function over immutable datatypes. Two loops exist as methods with invariants:

- the streaming body reader (`Preview.ReadBody`);
- the price-pattern scanner (`Extract.ScanPrice` and `Extract.MatchHere`).

The modules are:

| module | file | contents |
|---|---|---|
| `Wrappers` | `wrappers.dfy` | `Option`, JavaScript's null and undefined |
| `Text` | `text.dfy` | ASCII lower-casing, JavaScript whitespace and `trim`, splitting, substring search |
| `Urls` | `urls.dfy` | a simplified URL record with parser, serialiser (proved inverse), query-pair list and relative resolution |
| `UrlUtils` | `url_utils.dfy` | `normalizeUrl`, `getDomain`, `getPath` |
| `Ssrf` | `ssrf.dfy` | `isPrivateIPv4`, `isPrivateIP`, and a CIDR-block reference definition of the private ranges |
| `Storage` | `storage.dfy` | `saveItem`, `initAndMigrate` over a stored-state value |
| `Extract` | `extract.dfy` | the document record, `getMeta`, the fallback chains, the three price strategies, `extractMeta` |
| `Preview` | `preview.dfy` | the request handler, the streaming reader, error-to-status mapping |

The outside world is made of parameters:

- The page's parsed document is a `Document` record: `meta[property]` and `meta[name]` maps, the first `<title>` text, the first `<img>` src, and the JSON-LD blocks, each already parsed or marked malformed. `load: string -> Document` is the parser.
- `fetch: string -> FetchResult` answers for a URL. It either rejects with an error, or responds with a content type and an optional body.
- A body is the finite sequence of stream events delivered before the five-second timer fires. A sequence that runs out without an end event is the timer aborting the request.
- `decode: seq<bv8> -> string` is UTF-8 decoding.
- Item ids and timestamps are arguments of `SaveItem` and `InitAndMigrate`.

## Model

| member | source | states |
|---|---|---|
| `Extract.GetMeta` | server/src/routes/preview.ts:80-82 | a non-empty content under the requested attribute wins; otherwise the `name` lookup is the answer |
| `Extract.FirstTruthy` | server/src/routes/preview.ts:85-89 | a chain of or-alternatives yields the first non-empty candidate, with every earlier one empty; it yields nothing exactly when all are empty |
| `Extract.ExtractTitle` | server/src/routes/preview.ts:84-89 | the title is never empty; it is the first non-empty of og:title, twitter:title and the trimmed `<title>` text, else "Untitled" and only when all three are empty |
| `Extract.OgTitleWins` | server/src/routes/preview.ts:85-86 | a page whose og:title content is X has title X, whatever else it holds |
| `Extract.TitleFallbacks` | server/src/routes/preview.ts:84-89 | each later title source is used exactly when the earlier ones are empty, and "Untitled" when all are |
| `Extract.ExtractImage` | server/src/routes/preview.ts:91-103 | null exactly when all three sources are empty; an `http(s)://` value (any case) or an empty base leaves the value unchanged; otherwise it is resolved against the base, and kept unchanged when resolution fails |
| `Extract.IsHttpUrl` | server/src/routes/preview.ts:95 | a text passes exactly when it starts with the letters h, t, t, p in either case, then either "://" or an s (either case) and "://" |
| `Extract.HttpPrefixPasses` | server/src/routes/preview.ts:95 | a text starting with "http://" passes the absolute-URL test |
| `Extract.HttpsPrefixPasses` | server/src/routes/preview.ts:95 | a text starting with "https://" passes the absolute-URL test, so such an image is kept unchanged |
| `Extract.HttpTestIgnoresCase` | server/src/routes/preview.ts:95 | the absolute-URL test is case-insensitive: a text passes exactly when its lower-case form does |
| `Extract.PathImageResolves` | server/src/routes/preview.ts:97-99 | an image path starting with one '/' takes the page URL's scheme and host |
| `Extract.RelativeImageExample` | server/src/routes/preview.ts:97-99 | "/img/a.png" on a page at https://shop.example/p/1 becomes https://shop.example/img/a.png |
| `Extract.ExtractSiteName` | server/src/routes/preview.ts:108-117 | og:site_name when non-empty, else the hostname of the base when it parses, else the raw base |
| `Extract.SiteNameOfHref` | server/src/routes/preview.ts:108-117 | without og:site_name, the site name read against a URL's href is that URL's hostname |
| `Extract.FormatPrice` | server/src/routes/preview.ts:24-27 | the currency is kept as given; the price is "cur amt" with a currency and the bare amount without one |
| `Extract.OgPrice` | server/src/routes/preview.ts:18-28 | the Open Graph strategy hits exactly when `product:price:amount` is non-empty; the price is "cur amt" and the currency cur when `product:price:currency` is non-empty, else the bare amount and a null currency |
| `Extract.JsTruthy` | server/src/routes/preview.ts:42-47 | undefined and null are falsy; a string is truthy exactly when non-empty, a number exactly when its text is not "0", a boolean exactly when true; every object and array is truthy |
| `Extract.ToStr` | server/src/routes/preview.ts:48-50 | a string converts to itself, a number to its text, a boolean to "true" or "false", null to "null", an object to "[object Object]", a one-string array to that string, and an empty array to the empty string |
| `Extract.OfferOf` | server/src/routes/preview.ts:43-45 | the offer is absent exactly for an empty array; a non-empty array gives its first element; any other value is its own offer |
| `Extract.ItemPrice` | server/src/routes/preview.ts:41-53 | an item gives a price exactly when it is a "Product" with truthy offers whose offer is present, not null, and has a truthy price; the price is "cur amt" with currency cur when `priceCurrency` is truthy, else the bare amount with a null currency; it throws exactly for a null item or a Product whose offer is an empty array's undefined or null; a non-object, non-null item gives nothing |
| `Extract.ProductOfferPrice` | server/src/routes/preview.ts:42-51 | a Product whose offer object has string price p and currency c gives price "c p" and currency c |
| `Extract.ProductOfferNumberPrice` | server/src/routes/preview.ts:42-51 | a Product whose offer has a number price t other than 0 and a string currency c gives price "c t" and currency c |
| `Extract.ItemsOf` | server/src/routes/preview.ts:40 | a parsed JSON-LD array is scanned element by element, in order; any other value is scanned as a single item |
| `Extract.ScanItems` | server/src/routes/preview.ts:40-54 | the first item that prices or throws decides the block, with its own outcome, and every earlier item gave nothing; the block finds nothing exactly when no item prices or throws |
| `Extract.LdPrice` | server/src/routes/preview.ts:30-59 | the JSON-LD strategy is the first block, in document order, that yields a price; malformed, empty and throwing blocks are passed over |
| `Extract.MatchAt` | server/src/routes/preview.ts:62 | a match at a position exists exactly when the character there is one of £, € and $ and a run of digits and commas follows it (after one optional space); its amount is that whole run plus an optional dot with one or two digits, read from the text itself |
| `Extract.MatchHere` | server/src/routes/preview.ts:62 | one attempt of the pattern at a position, as a loop over the run of digits and commas, agrees with `MatchAt` |
| `Extract.ScanPrice` | server/src/routes/preview.ts:62-63 | the scanner returns the leftmost match and no position before it matches; it returns nothing exactly when no position matches |
| `Extract.FindPrice` | server/src/routes/preview.ts:62-63 | the leftmost match at or after a position, with nothing matching before it |
| `Extract.RegexPrice` | server/src/routes/preview.ts:61-69 | the pattern strategy gives price symbol+amount and currency symbol of the leftmost match, and nothing exactly when no position matches |
| `Extract.RegexReadsBack` | server/src/routes/preview.ts:61-69 | for any text free of currency symbols, followed by a symbol, a well-shaped amount, and a tail that cannot extend the amount, the pattern strategy gives exactly that symbol and amount as price, and the symbol as currency |
| `Extract.MatchInText` | server/src/routes/preview.ts:62 | a symbol followed by a well-shaped amount and a tail that cannot extend it matches at the symbol with exactly that amount, whatever comes before |
| `Extract.FirstHit` | server/src/routes/preview.ts:16-71 | the first strategy with a result wins, and every earlier one had none |
| `Extract.ExtractPriceAndCurrency` | server/src/routes/preview.ts:16-72 | the price is null exactly when all three strategies miss (and then so is the currency); otherwise it is the first strategy's result |
| `Extract.PricePriority` | server/src/routes/preview.ts:22-69 | an Open Graph amount beats a JSON-LD offer, which beats the pattern |
| `Extract.JsonLdPageExample` | server/src/routes/preview.ts:30-59 | a page with no Open Graph price and one JSON-LD Product offering "19.99" in USD gives price "USD 19.99" and currency USD |
| `Extract.ExtractMeta` | server/src/routes/preview.ts:77-120 | the title is the title chain's result, the image the image chain's, price and currency the price strategies' answer, the site name the site-name chain's; hence the title is never empty, an image is never the empty string, and there is no currency without a price |
| `Extract.OpenGraphWithoutBase` | server/src/routes/preview.ts:77-120 | a page with og:title, og:image, amount and currency read without a base gives exactly those fields, price "cur amt", and an empty site name |
| `Extract.OpenGraphPageExample` | server/src/routes/preview.ts:77-120 | the four-tag "Shoe" page gives title Shoe, image http://x.com/a.jpg, price "USD 19.99", currency USD |
| `Preview.ReadBody` | server/src/routes/preview.ts:194-209 | the event loop agrees with the reader's description by stop event, and a completed read holds at most 512 KiB |
| `Preview.ReadIsExpected` | server/src/routes/preview.ts:194-209 | reading is too large exactly when the data before the first non-data event exceeds the cap; otherwise an end completes with all that data in order, and an error event (or the timer) fails with that error |
| `Preview.OverCapRejected` | server/src/routes/preview.ts:198-204 | once the data so far passes the cap, the read is too large, whatever the stream would send later |
| `Preview.CompleteIsEverything` | server/src/routes/preview.ts:197-212 | a completed read ended at an end event and kept every chunk before it, within the cap |
| `Preview.MapError` | server/src/routes/preview.ts:216-233 | aborts are 504; an error whose message is MAX_HTML_SIZE_EXCEEDED (the reader's size rejection) is 413; everything else is 400, with the error's own message when it has one |
| `Preview.ReaderErrorsMapped` | server/src/routes/preview.ts:219-226 | a read that is too large maps to 413 and the aborted request to 504 |
| `Preview.SettledError` | server/src/routes/preview.ts:197-209 | a read that is too large settles with the size rejection; a failed read settles with its own error |
| `Preview.SettledErrorAsWritten` | server/src/routes/preview.ts:200-208 | in the order the data handler is written, a read that is too large settles with the abort error; a failed read with its own error |
| `Preview.OversizedAsWrittenTimesOut` | server/src/routes/preview.ts:198-226 | as written, a body that passes the cap is answered 504 "Fetch timed out"; with the size rejection settling first it is 413 |
| `Preview.HandleResponse` | server/src/routes/preview.ts:180-233 | a rejected fetch goes through the error mapping; a non-html content type is 400 "Content-Type is not text/html"; a missing body is 400 "Empty response body"; a completed read is the extracted metadata of the decoded bytes against the fetched href, with that href as sourceUrl; any other read goes through the error mapping of its settling error, with the size rejection settling first (see Findings) |
| `Preview.Handle` | server/src/routes/preview.ts:125-234 | missing input is 400 with no fetch; raw markup never fetches and uses the url (or "") as base and the url (or null) as sourceUrl; a URL that parses with scheme http or https is fetched by its href, and the reply is the response handling of that fetch; nothing else is fetched; errors are 400, 413 or 504 |
| `Preview.FetchedReplyWithinCap` | server/src/routes/preview.ts:194-215 | a successful fetched reply comes from a completed read of at most 512 KiB and names the fetched URL |
| `Preview.HtmlWithinCapIsRead` | server/src/routes/preview.ts:172-215 | an http(s) URL answered as text/html whose body ends within 512 KiB is fetched by its href and answered with the metadata of all its bytes read against that href, and with the hostname as site name when og:site_name is absent |
| `Preview.OversizedBodyIs413` | server/src/routes/preview.ts:194-226 | with the size rejection settling first, an html response that streams more than 512 KiB of data is answered 413, however long the stream would go on |
| `Preview.NonHttpNeverFetched` | server/src/routes/preview.ts:143-152 | an unparsable URL or one with another scheme is refused with 400 before any request |
| `Ssrf.ToNumber` | server/src/utils/ssrf.ts:15 | a piece is a number exactly when it is all digits; the empty piece is 0 |
| `Ssrf.Octets` | server/src/utils/ssrf.ts:15-16 | there are four numbers exactly when the text splits into four pieces on '.' that are all numeric, and each number is `Number` of its piece |
| `Ssrf.ToNumberDecimal` | server/src/utils/ssrf.ts:15 | `Number` reads the decimal text of every number back as that number |
| `Ssrf.ToNumberLeadingZero` | server/src/utils/ssrf.ts:15 | a leading zero does not change a piece's number, so "010" is 10 and not octal |
| `Ssrf.IsPrivateIPv4` | server/src/utils/ssrf.ts:14-23 | only four numeric pieces can be private, and then exactly when the first two numbers pass the range tests |
| `Ssrf.IsPrivateIP` | server/src/utils/ssrf.ts:25-40 | the empty string is not private; "::1" in any case is; lower-case prefixes fe80:, fc and fd are; text without '.' that passes none of these is not; other dotted text without the "::ffff:" prefix is classified by `isPrivateIPv4` |
| `Ssrf.MappedPart` | server/src/utils/ssrf.ts:34 | the part after "::ffff:" runs up to the next "::ffff:" or to the end of the text, holding no occurrence of the prefix, and holds a '.' only if the text does |
| `Ssrf.MappedUsesEmbedded` | server/src/utils/ssrf.ts:32-35 | a "::ffff:" address is classified by the text after the prefix (up to any repeat of the prefix) |
| `Ssrf.PrivateLeadingIsBlocks` | server/src/utils/ssrf.ts:17-21 | the tests on the first two octets are exactly membership in 10/8, 127/8, 169.254/16, 172.16/12 and 192.168/16 |
| `Ssrf.DottedQuadSplits` | server/src/utils/ssrf.ts:15-16 | a dotted quad written in decimal splits back into its four octets |
| `Ssrf.DottedQuadPrivate` | server/src/utils/ssrf.ts:14-40 | a dotted quad is private, to both functions, exactly when its 32-bit address is in one of the five blocks |
| `Ssrf.MappedDottedQuad` | server/src/utils/ssrf.ts:32-35 | "::ffff:" followed by a dotted quad is private exactly when the quad's address is in a private block |
| `Storage.KeyOf` | AssignmentApp/src/utils/storage.ts:36 | a source URL gives a key exactly when it is non-empty; the key is the URL normalised, and normalising it again changes nothing |
| `Storage.ListOf` | AssignmentApp/src/utils/storage.ts:58-59 | a version 2 store gives its items; absent or unknown gives none; version 1 gives its items one-to-one, every field kept and no key |
| `Storage.SaveKey` | AssignmentApp/src/utils/storage.ts:64-66 | a given normalizedUrl is the key as it is; otherwise there is a key exactly when the source URL is non-empty, and it is that URL normalised |
| `Storage.FindByKey` | AssignmentApp/src/utils/storage.ts:70 | the index found is the first item with the key; nothing is found exactly when no item has it |
| `Storage.SaveItem` | AssignmentApp/src/utils/storage.ts:55-89 | rejected exactly when the key is non-empty and stored already, leaving the state as it was; otherwise the new list is the saved item followed by the old list, with every field as given and absent ones null |
| `Storage.SavePreservesDistinct` | AssignmentApp/src/utils/storage.ts:69-87 | stored non-empty keys that are pairwise distinct stay distinct after a save |
| `Storage.SaveWithoutKey` | AssignmentApp/src/utils/storage.ts:69 | an item without a key is never rejected, and the old items follow it in order |
| `Storage.SaveTwiceRejected` | AssignmentApp/src/utils/storage.ts:69-88 | a second save of the same non-empty key is rejected and changes nothing |
| `Storage.MigrateItem` | AssignmentApp/src/utils/storage.ts:35-41 | a migrated item keeps every field, takes the key of its source URL, and keeps a non-empty createdAt, else takes the clock's |
| `Storage.InitAndMigrate` | AssignmentApp/src/utils/storage.ts:24-48 | the result is version 2; version 2 is untouched; absent or unknown becomes empty; version 1 items map one-to-one in order, keeping every field, gaining the normalised source URL as key exactly when they have a non-empty one, keeping a non-empty createdAt and otherwise taking the clock's |
| `Storage.MigratedKeysNormalized` | AssignmentApp/src/utils/storage.ts:36 | every key the migration writes is a fixed point of `normalizeUrl` |
| `Storage.MigratedThenSaveRejected` | AssignmentApp/src/utils/storage.ts:35-71 | after migration, saving a page whose source URL is already on the list is rejected |
| `UrlUtils.Has` | AssignmentApp/src/utils/url.ts:21 | `has` is true exactly when some pair has the name |
| `UrlUtils.Delete` | AssignmentApp/src/utils/url.ts:22 | `delete` keeps exactly the pairs with another name, in order: it is the one-key ordered filter by name |
| `UrlUtils.Untracked` | AssignmentApp/src/utils/url.ts:12-24 | a pair survives exactly when its name is not one of the five tracking keys |
| `UrlUtils.DeleteTrackingKeys` | AssignmentApp/src/utils/url.ts:20-24 | the key-by-key `forEach` over the five tracking keys keeps exactly the untracked pairs in order, and deletes something exactly when a tracking key is present |
| `UrlUtils.DeleteKeysFilter` | AssignmentApp/src/utils/url.ts:20-24 | for any key list, a pair survives the fold exactly when it was there and its name is not in the list |
| `UrlUtils.DeleteKeys` | AssignmentApp/src/utils/url.ts:20-24 | the fold over any key list is the ordered filter by those names, and reports a deletion exactly when some pair has one of them |
| `UrlUtils.FilterNamesKeeps` | AssignmentApp/src/utils/url.ts:20-24 | the ordered filter keeps a pair exactly when it was there and its name is not in the list |
| `UrlUtils.UntrackedAppend` | AssignmentApp/src/utils/url.ts:20-27 | filtering commutes with concatenation, so the kept pairs keep their relative order |
| `UrlUtils.UntrackedClean` | AssignmentApp/src/utils/url.ts:20-24 | no tracking pair survives |
| `UrlUtils.StripTracking` | AssignmentApp/src/utils/url.ts:8-27 | stripping changes nothing but the query, and nothing at all when no tracking key is present; after a deletion the query is absent exactly when no untracked pair remains |
| `UrlUtils.NormalizeUrl` | AssignmentApp/src/utils/url.ts:28-31 | text that does not parse is returned unchanged |
| `UrlUtils.NormalizeUrlParams` | AssignmentApp/src/utils/url.ts:8-27 | the result parses, differs from the input only in its query, holds exactly the untracked pairs in order, and no tracking key; with no tracking key the URL comes back as it was parsed, and otherwise the query is dropped exactly when no untracked pair remains |
| `UrlUtils.OnlyTrackingDropsQuery` | AssignmentApp/src/utils/url.ts:20-27 | a well-formed URL whose query holds only tracking keys normalises to the same URL with no query, not with an empty "?" |
| `UrlUtils.NormalizeUrlIdempotent` | AssignmentApp/src/utils/url.ts:6-32 | normalising twice is normalising once |
| `UrlUtils.GetDomain` | AssignmentApp/src/utils/url.ts:34-41 | unparsable input is returned as is; otherwise the hostname, minus one leading "www." exactly when it has one |
| `UrlUtils.GetDomainOfHref` | AssignmentApp/src/utils/url.ts:34-41 | the domain of a URL whose hostname is "www." + rest is rest |
| `UrlUtils.GetPath` | AssignmentApp/src/utils/url.ts:43-50 | never empty: the parsed pathname when non-empty, "/" when it is empty, and "/" for unparsable input |
| `UrlUtils.GetPathOfHref` | AssignmentApp/src/utils/url.ts:43-50 | the path of a URL's href is its own path, or "/" when empty |
| `Urls.Parse` | AssignmentApp/src/utils/url.ts:8 | text without ':' does not parse; the scheme is the lower-cased text before the first ':'; a special scheme has a non-empty host and a non-empty path |
| `Urls.Serialize` | AssignmentApp/src/utils/url.ts:27 | the href starts with the scheme and ':', and holds a '#' whenever there is a fragment |
| `Urls.ParseQuery` | AssignmentApp/src/utils/url.ts:11 | the empty query has no pairs; no pair name holds '=' or '&' |
| `Urls.SerializeQuery` | AssignmentApp/src/utils/url.ts:27 | the query is empty exactly when there are no pairs; one pair serialises as name=value |
| `Urls.ParseSerialize` | AssignmentApp/src/utils/url.ts:8-27 | every well-formed URL is recovered by parsing its href |
| `Urls.ParseWellFormed` | AssignmentApp/src/utils/url.ts:8 | every URL the parser produces is well formed |
| `Urls.ParseSerializeQuery` | AssignmentApp/src/utils/url.ts:11-27 | serialising a list of query pairs and parsing it again gives the same list |
| `Urls.Resolve` | server/src/routes/preview.ts:97-99 | resolution needs a parsable base, and an absolute reference stands for itself |
| `Urls.ResolvePathAbsolute` | server/src/routes/preview.ts:97-99 | a path-absolute reference keeps the base's scheme and host and replaces the rest |
| `Urls.Hostname` | AssignmentApp/src/utils/url.ts:37 | the hostname is the longest prefix of the authority with no ':' in it, and empty for URLs without an authority |
| `Text.Lower` | server/src/utils/ssrf.ts:28 | lower-casing keeps the length and maps every character through ASCII lower-casing |
| `Text.Split` | server/src/utils/ssrf.ts:15 | splitting gives at least one piece, no piece holds the separator, and joining the pieces with it gives back the text |
| `Text.SplitJoin` | server/src/utils/ssrf.ts:15 | splitting separator-free pieces joined by the separator gives back those pieces |
| `Text.Trim` | server/src/routes/preview.ts:88 | trimming removes only leading and trailing JavaScript whitespace and leaves none at either end |
| `Text.Contains` | server/src/routes/preview.ts:182 | `includes` holds exactly when the text occurs somewhere |

## Where the code and its description disagree (the model follows the code)

- **Image resolution failure.** An image that cannot be resolved against the base is kept as it was. It is not dropped to null.
- **Base URL and `sourceUrl` on the fetch path.** Both are the href of the requested URL, not the URL reached after redirects.
- **Empty body.** A body that ends without data is not an error: extraction runs on the empty text. Only a missing body stream is rejected.
- **Private addresses.** The private-address check before fetching is commented out in the handler. A URL whose host resolves to 127.0.0.1 is fetched like any other, and `Handle` has no such branch. `isPrivateIP` is modelled on its own.
- **Missing-input message.** The server's test expects the message "URL is required", but the handler sends "url or raw_html is required". The model carries the handler's text; the properties are stated on statuses.

## Findings

| source | as written | input that shows it | evidently intended | confidence | as-written member | corrected member |
|---|---|---|---|---|---|---|
| server/src/routes/preview.ts:200-202 | the data handler aborts the request before it rejects with the size error; node-fetch answers the abort by emitting an AbortError on the body at once, so the error listener at line 208 settles the promise with it first | an html response streaming 600 KiB of data: the reply is 504 "Fetch timed out" | 413 "Max HTML size exceeded", as the branch at lines 225-226 provides | not executed; rests on node-fetch emitting its abort error on the body synchronously | `Preview.OversizedAsWrittenTimesOut` (with `Preview.SettledErrorAsWritten`) | `Preview.SettledError`, used by `Preview.HandleResponse`; `Preview.OversizedBodyIs413` |

## Left out

- **Network and timing:** HTTP, DNS, redirects and the timer are not modelled as processes.
  - `fetch` is a parameter. Redirect failures reach the model as an error whose type is "max-redirect".
  - The timer is the end of the event sequence, or an abort error the stream or `fetch` reports.
  - `resolveHost` (DNS) is not part of this model.
- **HTML and JSON parsing:** cheerio's selector engine and `JSON.parse` are replaced by the `Document` record.
  - A JSON-LD block is parsed, malformed or empty.
  - A block whose text is empty is skipped as the source skips it.
- Extract.ItemPrice: a price or currency that is a JSON number or another non-string value is returned as its JavaScript string form. The source returns the value itself where it does not build a template string.
- Extract.JsTruthy: a JSON number is carried as its JSON text. Only the text "0" is falsy, so "0.0", "-0" and "0e1" count as truthy where JavaScript reads them as 0.
- Extract.ToStr: a number converts to its JSON text unchanged, so "1.50" stays "1.50" and "1e2" stays "1e2" where JavaScript writes "1.5" and "100".
- **UTF-8 decoding:** a parameter; the byte count that the cap applies to is the length of each chunk's bytes.
- **Extraction exceptions:** extraction never throws in the model, so the raw path's "Parse failed" reply (status 400) is not reachable.
- Ssrf.ToNumber: a piece counts as a number only when it is all ASCII digits.
  - JavaScript's `Number` also accepts a leading '+' or '-' sign, surrounding whitespace, hexadecimal, octal and binary prefixes, fractions and exponents. So text such as "10.0.0.0x1" or "+10.0.0.1" is private to the source but not to the model.
- UrlUtils.NormalizeUrl: the query is not percent-decoded or re-encoded the way URLSearchParams does it. When a tracking key is removed, the source rewrites the remaining pairs in its own encoding, so "q=a%20b&utm_source=x" becomes "q=a+b". The model keeps "q=a%20b", so the two keys can differ.
- Urls.Resolve: URL parsing is a simplified WHATWG parser.
  - Not modelled: percent-encoding, dot-segment removal, IDNA, backslashes, ports, credentials, and the special "file" scheme rules.
  - The hostname is the authority up to its first ':'.
  - Relative resolution covers references that start with "//", "/", "?", "#", or a relative path.
- Urls.Parse: the model rejects or reads differently some inputs that the WHATWG URL parser accepts:
  - Leading and trailing C0 control characters and spaces are not stripped, and tabs and newlines inside the text are not removed.
  - A special scheme without "//", as in "http:example.com" or "http:/x", does not parse; the WHATWG parser reads it as "http://example.com/" and "http://x/".
  - "http:///x" does not parse, since its authority is empty; the WHATWG parser skips the extra slashes and takes "x" as host.
  - Every host is lower-cased. The WHATWG parser lower-cases only the hosts of special schemes, so "foo://EXAMPLE/" keeps its case there. IPv4 hosts in hexadecimal, octal or shortened form are not canonicalised, so "http://0x7f.1/" keeps that host text.
- Text.Lower: ASCII only. JavaScript's `toLowerCase` also folds non-ASCII letters.
- Storage.SaveItem: a stored value of an unknown version that still has an `items` array is read by `saveItem` as that array; the model's unknown state carries no items, so `SaveItem` treats it as empty.
- Storage.InitAndMigrate: every migrated item missing `createdAt` gets the same timestamp. The source takes a fresh clock reading per item.
- **Other store operations:** `getAllItems` and `clearAll` are outside the modelled core, and so is the AsyncStorage key-value backend.
- **Non-string request fields:** a request whose `url` or `raw_html` is not a string is not modelled.
- **Other files:** `server/src/index.ts` (express wiring and rate limiting), `server/src/utils/fetchPage.ts` and the client's screens and configuration are not part of this model.
- **Extractor idempotence:** holds by construction, since `ExtractMeta` is a function of markup, document and base. No lemma states it.

=== FILE: extract.dfy ===
/** The metadata extractor of the preview server: ordered fallback chains for title,
    image and site name, and three price strategies tried in priority order.
    The parsed page is an abstract record of what the extractor's selectors read. */
module Extract {
  import opened Wrappers
  import opened Text
  import opened Urls

  // ---------------------------------------------------------------------
  // The parsed page

  /** A JSON value as `JSON.parse` returns it. A number carries its JSON text as it
      stands in the block; string conversion and truthiness are read off that text. */
  datatype Json =
    | JNull
    | JBool(b: bool)
    | JNum(text: string)
    | JStr(s: string)
    | JArr(elems: seq<Json>)
    | JObj(fields: map<string, Json>)

  /** One `<script type="application/ld+json">` block: empty text, text that does not
      parse as JSON, or the parsed value. */
  datatype LdScript = LdEmpty | LdMalformed | LdParsed(data: Json)

  /** What the extractor's selectors see of a page.
      `metaProperty[k]` is the `content` of the first `<meta property=k>` when that
      element has one, and `metaName[k]` likewise for `<meta name=k>`; `titleText` is
      the text of the first `<title>`, `firstImgSrc` the `src` of the first `<img>`. */
  datatype Document = Document(
    metaProperty: map<string, string>,
    metaName: map<string, string>,
    titleText: Option<string>,
    firstImgSrc: Option<string>,
    ldJson: seq<LdScript>)

  /** The extractor's result. */
  datatype Meta = Meta(title: string, image: Option<string>, price: Option<string>,
                       currency: Option<string>, siteName: string)

  /** Price and currency, either of which may be null. */
  datatype PriceInfo = PriceInfo(price: Option<string>, currency: Option<string>)

  // ---------------------------------------------------------------------
  // Meta lookup and ordered fallbacks

  datatype Attr = Property | Name

  function Lookup(doc: Document, attr: Attr, key: string): Option<string> {
    var m := if attr == Property then doc.metaProperty else doc.metaName;
    if key in m then Some(m[key]) else None
  }

  /** `getMeta(prop, attr)`: the `content` found through `attr`, else through `name`. */
  function GetMeta(doc: Document, prop: string, attr: Attr): (r: Option<string>)
    ensures Truthy(Lookup(doc, attr, prop)) ==> r == Lookup(doc, attr, prop)
    ensures !Truthy(Lookup(doc, attr, prop)) ==> r == Lookup(doc, Name, prop)
  {
    var first := Lookup(doc, attr, prop);
    if Truthy(first) then first else Lookup(doc, Name, prop)
  }

  /** The first truthy candidate of an `a || b || c` chain. */
  function FirstTruthy(cands: seq<Option<string>>): (r: Option<string>)
    ensures r.Some? ==> r.value != [] && (exists i :: 0 <= i < |cands| && cands[i] == r
                                           && forall j :: 0 <= j < i ==> !Truthy(cands[j]))
    ensures r.None? <==> forall i :: 0 <= i < |cands| ==> !Truthy(cands[i])
  {
    if cands == [] then None
    else if Truthy(cands[0]) then cands[0]
    else
      var r := FirstTruthy(cands[1..]);
      assert r.Some? ==> (exists i :: 0 <= i < |cands| && cands[i] == r
                                    && forall j :: 0 <= j < i ==> !Truthy(cands[j])) by {
        if r.Some? {
          var i :| 0 <= i < |cands[1..]| && cands[1..][i] == r
                   && forall j :: 0 <= j < i ==> !Truthy(cands[1..][j]);
          assert cands[i + 1] == r;
          assert forall j :: 0 <= j < i + 1 ==> !Truthy(cands[j]) by {
            forall j | 0 <= j < i + 1 ensures !Truthy(cands[j]) {
              if j > 0 {
                assert cands[j] == cands[1..][j - 1];
              }
            }
          }
        }
      }
      assert r.None? ==> forall i :: 0 <= i < |cands| ==> !Truthy(cands[i]) by {
        if r.None? {
          forall i | 0 <= i < |cands| ensures !Truthy(cands[i]) {
            if i > 0 {
              assert cands[i] == cands[1..][i - 1];
            }
          }
        }
      }
      r
  }

  /** The title chain: og:title, twitter:title, the trimmed first `<title>`. */
  function TitleCandidates(doc: Document): seq<Option<string>> {
    [GetMeta(doc, "og:title", Property), GetMeta(doc, "twitter:title", Name),
     Some(Trim(doc.titleText.GetOr("")))]
  }

  /** The title: the first non-empty candidate, else "Untitled"; never empty. */
  function ExtractTitle(doc: Document): (t: string)
    ensures t != []
    ensures || (exists i :: 0 <= i < 3 && TitleCandidates(doc)[i] == Some(t)
                           && forall j :: 0 <= j < i ==> !Truthy(TitleCandidates(doc)[j]))
            || (t == "Untitled" && forall i :: 0 <= i < 3 ==> !Truthy(TitleCandidates(doc)[i]))
  {
    FirstTruthy(TitleCandidates(doc)).GetOr("Untitled")
  }

  /** An og:title with content is the title, whatever else the page holds. */
  lemma OgTitleWins(doc: Document, x: string)
    requires "og:title" in doc.metaProperty && doc.metaProperty["og:title"] == x && x != []
    ensures ExtractTitle(doc) == x
  {
    assert TitleCandidates(doc)[0] == Some(x);
  }

  /** Title fallbacks: twitter:title is used only when neither og:title lookup gave
      content, and the `<title>` text only after both meta lookups. */
  lemma TitleFallbacks(doc: Document)
    ensures !Truthy(GetMeta(doc, "og:title", Property)) && Truthy(GetMeta(doc, "twitter:title", Name))
            ==> ExtractTitle(doc) == GetMeta(doc, "twitter:title", Name).value
    ensures !Truthy(GetMeta(doc, "og:title", Property)) && !Truthy(GetMeta(doc, "twitter:title", Name))
            && Trim(doc.titleText.GetOr("")) != []
            ==> ExtractTitle(doc) == Trim(doc.titleText.GetOr(""))
    ensures !Truthy(GetMeta(doc, "og:title", Property)) && !Truthy(GetMeta(doc, "twitter:title", Name))
            && Trim(doc.titleText.GetOr("")) == []
            ==> ExtractTitle(doc) == "Untitled"
  {
    var c := TitleCandidates(doc);
    assert c[1..][0] == c[1];
    assert c[1..][1..] == [c[2]];
  }

  /** "http" in any case, at the start of the text. */
  predicate HttpLetters(s: string) {
    && |s| >= 4 && LowerChar(s[0]) == 'h' && LowerChar(s[1]) == 't'
    && LowerChar(s[2]) == 't' && LowerChar(s[3]) == 'p'
  }

  /** "://" at index `k`. */
  predicate SlashesAt(s: string, k: nat) {
    k + 3 <= |s| && s[k] == ':' && s[k + 1] == '/' && s[k + 2] == '/'
  }

  /** /^https?:\/\//i: a scheme of http or https, in any case, followed by "//". */
  function IsHttpUrl(s: string): (b: bool)
    ensures b <==> HttpLetters(s) && (SlashesAt(s, 4) || (|s| > 4 && LowerChar(s[4]) == 's' && SlashesAt(s, 5)))
  {
    HttpPrefixChars(s);
    HttpsPrefixChars(s);
    StartsWith(Lower(s), "http://") || StartsWith(Lower(s), "https://")
  }

  /** Only ':' and '/' lower-case to themselves among those two characters. */
  lemma LowerPunct(c: char)
    ensures LowerChar(c) == ':' <==> c == ':'
    ensures LowerChar(c) == '/' <==> c == '/'
  {
  }

  lemma HttpPrefixChars(s: string)
    ensures StartsWith(Lower(s), "http://") <==> HttpLetters(s) && SlashesAt(s, 4)
  {
    if |s| >= 7 {
      var p := "http://";
      assert p[0] == 'h' && p[1] == 't' && p[2] == 't' && p[3] == 'p';
      assert p[4] == ':' && p[5] == '/' && p[6] == '/';
      LowerPunct(s[4]); LowerPunct(s[5]); LowerPunct(s[6]);
      PrefixByChars(Lower(s), p);
    }
  }

  lemma HttpsPrefixChars(s: string)
    ensures StartsWith(Lower(s), "https://") <==>
              HttpLetters(s) && |s| > 4 && LowerChar(s[4]) == 's' && SlashesAt(s, 5)
  {
    if |s| >= 8 {
      HttpsLiteral("https://", Lower(s), s);
    }
  }

  /** The same, with the literal and the lower-cased text held abstract. */
  lemma HttpsLiteral(p: string, low: string, s: string)
    requires |p| == 8 && p[0] == 'h' && p[1] == 't' && p[2] == 't' && p[3] == 'p' && p[4] == 's'
    requires p[5] == ':' && p[6] == '/' && p[7] == '/'
    requires |s| >= 8 && |low| == |s| && forall k :: 0 <= k < |s| ==> low[k] == LowerChar(s[k])
    ensures StartsWith(low, p) <==>
              HttpLetters(s) && LowerChar(s[4]) == 's' && SlashesAt(s, 5)
  {
    if StartsWith(low, p) {
      HttpsForward(p, low[..8], s);
    }
    if HttpLetters(s) && LowerChar(s[4]) == 's' && SlashesAt(s, 5) {
      LowerPunct(s[5]); LowerPunct(s[6]); LowerPunct(s[7]);
      assert forall k :: 0 <= k < 8 ==> low[k] == p[k];
      assert low[..8] == p;
    }
  }

  lemma HttpsForward(p: string, q: string, s: string)
    requires |p| == 8 && p[0] == 'h' && p[1] == 't' && p[2] == 't' && p[3] == 'p' && p[4] == 's'
    requires p[5] == ':' && p[6] == '/' && p[7] == '/'
    requires |s| >= 8 && q == p && forall k :: 0 <= k < 8 ==> q[k] == LowerChar(s[k])
    ensures HttpLetters(s) && LowerChar(s[4]) == 's' && SlashesAt(s, 5)
  {
    LowerPunct(s[5]); LowerPunct(s[6]); LowerPunct(s[7]);
  }

  /** A prefix is matched character by character. */
  lemma PrefixByChars(x: string, p: string)
    requires |p| <= |x|
    ensures StartsWith(x, p) <==> forall i :: 0 <= i < |p| ==> x[i] == p[i]
  {
    if forall i :: 0 <= i < |p| ==> x[i] == p[i] {
      assert x[..|p|] == p;
    }
  }

  /** Text that starts with "http://" passes the test. */
  lemma HttpPrefixPasses(s: string)
    requires |s| >= 7 && s[0] == 'h' && s[1] == 't' && s[2] == 't' && s[3] == 'p'
    requires s[4] == ':' && s[5] == '/' && s[6] == '/'
    ensures IsHttpUrl(s)
  {
  }

  /** Text that starts with "https://" passes the test. */
  lemma HttpsPrefixPasses(s: string)
    requires |s| >= 8 && s[0] == 'h' && s[1] == 't' && s[2] == 't' && s[3] == 'p' && s[4] == 's'
    requires s[5] == ':' && s[6] == '/' && s[7] == '/'
    ensures IsHttpUrl(s)
  {
  }

  /** The test ignores case: a text passes exactly when its lower-case form does. */
  lemma HttpTestIgnoresCase(s: string)
    ensures IsHttpUrl(s) == IsHttpUrl(Lower(s))
  {
    LowerIsLower(s);
  }

  function ImageCandidates(doc: Document): seq<Option<string>> {
    [GetMeta(doc, "og:image", Property), GetMeta(doc, "twitter:image", Name), doc.firstImgSrc]
  }

  /** The image: the first non-empty candidate; unless it already starts with http:// or
      https:// it is resolved against a non-empty base, and kept as it is when
      resolution fails. */
  function ExtractImage(doc: Document, baseUrl: string): (r: Option<string>)
    ensures r.None? <==> forall i :: 0 <= i < 3 ==> !Truthy(ImageCandidates(doc)[i])
    ensures r.Some? ==> var c := FirstTruthy(ImageCandidates(doc)).value;
              && (IsHttpUrl(c) || baseUrl == [] ==> r.value == c)
              && (!IsHttpUrl(c) && baseUrl != [] && Resolve(c, baseUrl).None? ==> r.value == c)
              && (!IsHttpUrl(c) && baseUrl != [] && Resolve(c, baseUrl).Some? ==>
                    r.value == Serialize(Resolve(c, baseUrl).value))
  {
    match FirstTruthy(ImageCandidates(doc))
    case None => None
    case Some(img) =>
      if baseUrl != [] && !IsHttpUrl(img) then
        match Resolve(img, baseUrl)
        case Some(u) => Some(Serialize(u))
        case None => Some(img)
      else Some(img)
  }

  /** The site name: og:site_name, else the base URL's hostname, else the raw base. */
  function ExtractSiteName(doc: Document, baseUrl: string): (r: string)
    ensures Truthy(GetMeta(doc, "og:site_name", Property)) ==> r == GetMeta(doc, "og:site_name", Property).value
    ensures !Truthy(GetMeta(doc, "og:site_name", Property)) && Parse(baseUrl).Some? ==>
              r == Hostname(Parse(baseUrl).value)
    ensures !Truthy(GetMeta(doc, "og:site_name", Property)) && Parse(baseUrl).None? ==> r == baseUrl
  {
    var og := GetMeta(doc, "og:site_name", Property);
    if Truthy(og) then og.value
    else match Parse(baseUrl)
      case Some(u) => Hostname(u)
      case None => baseUrl
  }

  /** Without og:site_name, the site name of a page read against a URL's href is that
      URL's hostname. */
  lemma SiteNameOfHref(doc: Document, u: Url)
    requires WellFormed(u)
    requires !Truthy(GetMeta(doc, "og:site_name", Property))
    ensures ExtractSiteName(doc, Serialize(u)) == Hostname(u)
  {
    ParseSerialize(u);
  }

  // ---------------------------------------------------------------------
  // Price strategy 1: Open Graph product tags

  /** Price text from a currency and an amount: "{currency} {amount}" when a currency
      is known, else the bare amount; the currency itself or null. */
  function FormatPrice(currency: Option<string>, amount: string): (r: PriceInfo)
    ensures r.currency == currency && r.price.Some?
    ensures currency.None? ==> r.price == Some(amount)
    ensures currency.Some? ==> r.price.value == currency.value + [' '] + amount
  {
    match currency
    case Some(c) => PriceInfo(Some(c + " " + amount), currency)
    case None => PriceInfo(Some(amount), None)
  }

  /** Strategy 1: the amount tag decides; the price is "{currency} {amount}" when the
      currency tag has content, else the bare amount, and the currency is null then. */
  function OgPrice(doc: Document): (r: Option<PriceInfo>)
    ensures r.Some? <==> Truthy(Lookup(doc, Property, "product:price:amount"))
    ensures r.Some? ==>
              var amount := Lookup(doc, Property, "product:price:amount").value;
              var cur := Lookup(doc, Property, "product:price:currency");
              && (Truthy(cur) ==> r.value == PriceInfo(Some(cur.value + " " + amount), cur))
              && (!Truthy(cur) ==> r.value == PriceInfo(Some(amount), None))
  {
    var amount := Lookup(doc, Property, "product:price:amount");
    var currency := Lookup(doc, Property, "product:price:currency");
    if Truthy(amount) then Some(FormatPrice(if Truthy(currency) then currency else None, amount.value))
    else None
  }

  // ---------------------------------------------------------------------
  // Price strategy 2: schema.org Product offers in JSON-LD

  /** JavaScript truthiness of a JSON value that may be undefined. */
  function JsTruthy(v: Option<Json>): (b: bool)
    ensures b ==> v.Some? && !v.value.JNull?
    ensures v.Some? && (v.value.JObj? || v.value.JArr?) ==> b
    ensures v.Some? && v.value.JStr? ==> (b <==> v.value.s != [])
    ensures v.Some? && v.value.JNum? ==> (b <==> v.value.text != "0")
    ensures v.Some? && v.value.JBool? ==> (b <==> v.value.b)
  {
    match v
    case None => false
    case Some(JNull) => false
    case Some(JBool(b)) => b
    case Some(JNum(t)) => t != "0"
    case Some(JStr(s)) => s != []
    case Some(_) => true
  }

  /** Reading a property of a value that is not null or undefined: only objects have
      the properties the extractor reads. */
  function Field(v: Json, key: string): Option<Json> {
    match v
    case JObj(m) => if key in m then Some(m[key]) else None
    case _ => None
  }

  /** JavaScript string conversion, as in a template literal. */
  function ToStr(v: Json): (s: string)
    ensures v.JStr? ==> s == v.s
    ensures v.JArr? && |v.elems| == 1 && v.elems[0].JStr? ==> s == v.elems[0].s
    ensures v == JArr([]) ==> s == []
    ensures v.JNum? ==> s == v.text
    ensures v.JBool? ==> s == (if v.b then "true" else "false")
    ensures v.JNull? ==> s == "null"
    ensures v.JObj? ==> s == "[object Object]"
  {
    match v
    case JNull => "null"
    case JBool(b) => if b then "true" else "false"
    case JNum(t) => t
    case JStr(s) => s
    case JArr(es) => JoinElems(es)
    case JObj(_) => "[object Object]"
  }

  /** Array.prototype.join(","), where null elements become empty. */
  function JoinElems(es: seq<Json>): string
    decreases es
  {
    if es == [] then []
    else
      var head := if es[0].JNull? then "" else ToStr(es[0]);
      if |es| == 1 then head else head + "," + JoinElems(es[1..])
  }

  /** How scanning a JSON-LD value ends: an offer price, nothing, or a TypeError
      (reading a property of null or undefined), which abandons the block. */
  datatype Scan = Found(info: PriceInfo) | NotFound | Threw

  /** The offer of an `offers` value: its first element when it is an array (undefined
      when the array is empty), else the value itself. */
  function OfferOf(offers: Json): (r: Option<Json>)
    ensures r.None? <==> offers == JArr([])
    ensures offers.JArr? && offers.elems != [] ==> r == Some(offers.elems[0])
    ensures !offers.JArr? ==> r == Some(offers)
  {
    match offers
    case JArr(es) => if es == [] then None else Some(es[0])
    case _ => Some(offers)
  }

  /** One candidate item: a "Product" with truthy `offers`, whose offer (the first
      element when `offers` is an array) has a truthy `price`. */
  function ItemPrice(item: Json): (r: Scan)
    ensures r.Found? <==>
              && IsProductWithOffers(item)
              && OfferOf(Field(item, "offers").value).Some?
              && !OfferOf(Field(item, "offers").value).value.JNull?
              && JsTruthy(Field(OfferOf(Field(item, "offers").value).value, "price"))
    ensures r.Threw? <==>
              || item.JNull?
              || (IsProductWithOffers(item)
                  && (OfferOf(Field(item, "offers").value).None?
                      || OfferOf(Field(item, "offers").value).value.JNull?))
    ensures r.Found? ==>
              var offer := OfferOf(Field(item, "offers").value).value;
              var amount := ToStr(Field(offer, "price").value);
              var cur := Field(offer, "priceCurrency");
              && (JsTruthy(cur) ==> r.info == PriceInfo(Some(ToStr(cur.value) + " " + amount),
                                                         Some(ToStr(cur.value))))
              && (!JsTruthy(cur) ==> r.info == PriceInfo(Some(amount), None))
    ensures !item.JObj? && !item.JNull? ==> r.NotFound?
  {
    if item.JNull? then Threw
    else
      var offers := Field(item, "offers");
      if !IsProductWithOffers(item) then NotFound
      else
        var offer := OfferOf(offers.value);
        if offer.None? || offer.value.JNull? then Threw
        else
          var price := Field(offer.value, "price");
          if !JsTruthy(price) then NotFound
          else
            var cur := Field(offer.value, "priceCurrency");
            Found(FormatPrice(if JsTruthy(cur) then Some(ToStr(cur.value)) else None, ToStr(price.value)))
  }

  /** The items of a parsed block: its elements when it is an array, else the block. */
  function ItemsOf(data: Json): (items: seq<Json>)
    ensures data.JArr? ==> items == data.elems
    ensures !data.JArr? ==> items == [data]
  {
    if data.JArr? then data.elems else [data]
  }

  /** `item["@type"] === "Product" && item.offers`. */
  predicate IsProductWithOffers(item: Json) {
    Field(item, "@type") == Some(JStr("Product")) && JsTruthy(Field(item, "offers"))
  }

  /** The items of one block in order: the first price found, or the first TypeError,
      ends the scan. */
  function ScanItems(items: seq<Json>): (r: Scan)
    ensures !r.NotFound? ==> exists i :: 0 <= i < |items| && ItemPrice(items[i]) == r
                                        && forall j :: 0 <= j < i ==> ItemPrice(items[j]).NotFound?
    ensures r.NotFound? <==> forall i :: 0 <= i < |items| ==> ItemPrice(items[i]).NotFound?
  {
    if items == [] then NotFound
    else
      match ItemPrice(items[0])
      case NotFound =>
        var r := ScanItems(items[1..]);
        assert forall i :: 1 <= i < |items| ==> items[i] == items[1..][i - 1];
        assert !r.NotFound? ==> exists i :: 0 <= i < |items| && ItemPrice(items[i]) == r
                                         && forall j :: 0 <= j < i ==> ItemPrice(items[j]).NotFound? by {
          if !r.NotFound? {
            var i :| 0 <= i < |items[1..]| && ItemPrice(items[1..][i]) == r
                     && forall j :: 0 <= j < i ==> ItemPrice(items[1..][j]).NotFound?;
            assert ItemPrice(items[i + 1]) == r;
          }
        }
        r
      case other => other
  }

  /** A block yields a price: it parsed, and scanning its items found one. */
  predicate BlockHit(s: LdScript) {
    s.LdParsed? && ScanItems(ItemsOf(s.data)).Found?
  }

  /** The price a block yields. */
  function BlockInfo(s: LdScript): PriceInfo
    requires BlockHit(s)
  {
    ScanItems(ItemsOf(s.data)).info
  }

  /** Strategy 2: the price of the first block that yields one. Empty, malformed and
      throwing blocks are passed over. */
  function LdPrice(scripts: seq<LdScript>): (r: Option<PriceInfo>)
    ensures r.Some? ==> exists i :: 0 <= i < |scripts| && BlockHit(scripts[i])
                                    && BlockInfo(scripts[i]) == r.value
                                    && forall j :: 0 <= j < i ==> !BlockHit(scripts[j])
    ensures r.None? <==> forall i :: 0 <= i < |scripts| ==> !BlockHit(scripts[i])
  {
    if scripts == [] then None
    else if BlockHit(scripts[0]) then Some(BlockInfo(scripts[0]))
    else
      var r := LdPrice(scripts[1..]);
      LdPriceTail(scripts, r);
      r
  }

  /** The recursive case of `LdPrice`: a hit in the tail, after a head that is no hit,
      is the first hit of the whole sequence. */
  lemma LdPriceTail(scripts: seq<LdScript>, r: Option<PriceInfo>)
    requires scripts != [] && !BlockHit(scripts[0])
    requires r.Some? ==> exists i :: 0 <= i < |scripts[1..]| && BlockHit(scripts[1..][i])
                                     && BlockInfo(scripts[1..][i]) == r.value
                                     && forall j :: 0 <= j < i ==> !BlockHit(scripts[1..][j])
    requires r.None? <==> forall i :: 0 <= i < |scripts[1..]| ==> !BlockHit(scripts[1..][i])
    ensures r.Some? ==> exists i :: 0 <= i < |scripts| && BlockHit(scripts[i])
                                    && BlockInfo(scripts[i]) == r.value
                                    && forall j :: 0 <= j < i ==> !BlockHit(scripts[j])
    ensures r.None? <==> forall i :: 0 <= i < |scripts| ==> !BlockHit(scripts[i])
  {
    var tail := scripts[1..];
    assert forall i :: 1 <= i < |scripts| ==> scripts[i] == tail[i - 1];
    if r.Some? {
      var i :| 0 <= i < |tail| && BlockHit(tail[i]) && BlockInfo(tail[i]) == r.value
               && forall j :: 0 <= j < i ==> !BlockHit(tail[j]);
      assert scripts[i + 1] == tail[i];
      assert forall j :: 0 <= j < i + 1 ==> !BlockHit(scripts[j]);
    }
  }

  // ---------------------------------------------------------------------
  // Price strategy 3: /([£€$])\s?([\d,]+(?:\.\d{1,2})?)/ over the markup

  predicate IsCurrencySymbol(c: char) {
    c == '£' || c == '€' || c == '$'
  }

  predicate IsAmountChar(c: char) {
    IsDigit(c) || c == ','
  }

  /** The length of the run of digits and commas starting at `j`. */
  function RunLength(s: string, j: nat): (n: nat)
    requires j <= |s|
    ensures j + n <= |s|
    ensures forall t :: j <= t < j + n ==> IsAmountChar(s[t])
    ensures j + n == |s| || !IsAmountChar(s[j + n])
    decreases |s| - j
  {
    if j < |s| && IsAmountChar(s[j]) then 1 + RunLength(s, j + 1) else 0
  }

  /** The length of the optional `.\d{1,2}` after the run ending at `k`: the dot and
      as many digits (up to two) as follow it, or nothing when no digit follows. */
  function FractionLength(s: string, k: nat): (n: nat)
    requires k <= |s|
    ensures n == 0 || n == 2 || n == 3
    ensures k + n <= |s|
    ensures n > 0 ==> s[k] == '.' && forall t :: k < t < k + n ==> IsDigit(s[t])
  {
    if k + 1 < |s| && s[k] == '.' && IsDigit(s[k + 1]) then
      if k + 2 < |s| && IsDigit(s[k + 2]) then 3 else 2
    else 0
  }

  /** An amount as the pattern captures it: a leading run of digits and commas, then
      optionally a dot and one or two digits. */
  predicate AmountShape(a: string) {
    var n := RunLength(a, 0);
    && n >= 1
    && (n == |a| || (a[n] == '.' && (|a| == n + 2 || |a| == n + 3)
                    && forall t :: n < t < |a| ==> IsDigit(a[t])))
  }

  /** A match of the price pattern: the symbol and the amount. */
  datatype PriceMatch = PriceMatch(symbol: char, amount: string)

  /** The position where the amount starts after the symbol at `i`: past one
      whitespace character, when one follows the symbol and is not the last character. */
  function AmountStart(s: string, i: nat): (j: nat)
    requires i < |s|
    ensures i + 1 <= j <= i + 2 && j <= |s|
  {
    if i + 2 < |s| && IsJsSpace(s[i + 1]) then i + 2 else i + 1
  }

  /** The match of the pattern that starts at index `i`, if any. */
  function MatchAt(s: string, i: nat): (r: Option<PriceMatch>)
    requires i < |s|
    ensures r.Some? <==> IsCurrencySymbol(s[i]) && RunLength(s, AmountStart(s, i)) >= 1
    ensures r.Some? ==> r.value.symbol == s[i] && AmountShape(r.value.amount)
    ensures r.Some? ==>
              var j := AmountStart(s, i);
              var n := RunLength(s, j);
              r.value.amount == s[j..j + n + FractionLength(s, j + n)]
  {
    if !IsCurrencySymbol(s[i]) then None
    else
      var j := AmountStart(s, i);
      var n := RunLength(s, j);
      if n == 0 then None
      else
        var f := FractionLength(s, j + n);
        var a := s[j..j + n + f];
        AmountShapeOf(s, j, n, f);
        Some(PriceMatch(s[i], a))
  }

  lemma AmountShapeOf(s: string, j: nat, n: nat, f: nat)
    requires j <= |s| && n == RunLength(s, j) && n >= 1
    requires f == FractionLength(s, j + n)
    ensures AmountShape(s[j..j + n + f])
  {
    var a := s[j..j + n + f];
    RunOfSlice(s, j, j + n + f);
    assert RunLength(a, 0) == n;
  }

  /** The run at the start of a slice is the run in the whole string, cut at the slice end. */
  lemma {:induction false} RunOfSlice(s: string, j: nat, e: nat)
    requires j <= e <= |s|
    requires j + RunLength(s, j) <= e
    ensures RunLength(s[j..e], 0) == RunLength(s, j)
    decreases e - j
  {
    var n := RunLength(s, j);
    var a := s[j..e];
    if n > 0 {
      assert a[0] == s[j];
      RunOfSlice(s, j + 1, e);
      RunShift(a);
      assert a[1..] == s[j + 1..e];
    } else if j < e {
      assert a[0] == s[j];
    }
  }

  lemma RunShift(a: string)
    requires |a| > 0 && IsAmountChar(a[0])
    ensures RunLength(a, 0) == 1 + RunLength(a[1..], 0)
  {
    RunDrop(a, 1);
  }

  /** Counting from index `k` of `a` is counting from the start of `a[k..]`. */
  lemma {:induction false} RunDrop(a: string, k: nat)
    requires k <= |a|
    ensures RunLength(a, k) == RunLength(a[k..], 0)
    decreases |a| - k
  {
    if k < |a| && IsAmountChar(a[k]) {
      RunDrop(a, k + 1);
      assert a[k..][1..] == a[k + 1..];
      RunDrop(a[k..], 1);
    }
  }

  /** The leftmost match at or after `from`, with its position. */
  function FindPrice(s: string, from: nat): (r: Option<(nat, PriceMatch)>)
    requires from <= |s|
    ensures r.Some? ==> from <= r.value.0 < |s| && MatchAt(s, r.value.0) == Some(r.value.1)
                        && forall k :: from <= k < r.value.0 ==> MatchAt(s, k).None?
    ensures r.None? ==> forall k :: from <= k < |s| ==> MatchAt(s, k).None?
    decreases |s| - from
  {
    if from == |s| then None
    else
      match MatchAt(s, from)
      case Some(m) => Some((from, m))
      case None => FindPrice(s, from + 1)
  }

  /** The regex fallback as a left-to-right scanner: the first position where
      `MatchHere` finds a match. */
  method ScanPrice(s: string) returns (r: Option<PriceMatch>)
    ensures r.Some? ==> exists i :: 0 <= i < |s| && MatchAt(s, i) == r
                                    && forall k :: 0 <= k < i ==> MatchAt(s, k).None?
    ensures r.None? ==> forall k :: 0 <= k < |s| ==> MatchAt(s, k).None?
  {
    var i := 0;
    while i < |s|
      invariant 0 <= i <= |s|
      invariant forall k :: 0 <= k < i ==> MatchAt(s, k).None?
    {
      r := MatchHere(s, i);
      if r.Some? {
        return;
      }
      i := i + 1;
    }
    r := None;
  }

  /** One attempt of the pattern at `i`: a currency symbol, one optional whitespace
      character, the longest run of digits and commas, and a dot with up to two
      digits when at least one digit follows the dot. */
  method MatchHere(s: string, i: nat) returns (r: Option<PriceMatch>)
    requires i < |s|
    ensures r == MatchAt(s, i)
  {
    if !IsCurrencySymbol(s[i]) {
      return None;
    }
    var j := i + 1;
    if i + 2 < |s| && IsJsSpace(s[i + 1]) {
      j := i + 2;
    }
    assert j == AmountStart(s, i);
    var e := j;
    while e < |s| && IsAmountChar(s[e])
      invariant j <= e <= |s|
      invariant forall t :: j <= t < e ==> IsAmountChar(s[t])
    {
      e := e + 1;
    }
    RunIsMaximal(s, j, e);
    if e == j {
      return None;
    }
    var k := e;
    if e + 1 < |s| && s[e] == '.' && IsDigit(s[e + 1]) {
      k := e + 2;
      if k < |s| && IsDigit(s[k]) {
        k := k + 1;
      }
    }
    assert k == e + FractionLength(s, e);
    r := Some(PriceMatch(s[i], s[j..k]));
    MatchAtFound(s, i, j, e, k);
  }

  /** The match at `i` once the amount's run and fraction are known. */
  lemma MatchAtFound(s: string, i: nat, j: nat, e: nat, k: nat)
    requires i < |s| && IsCurrencySymbol(s[i])
    requires j == AmountStart(s, i) && e == j + RunLength(s, j) && e > j
    requires k == e + FractionLength(s, e)
    ensures MatchAt(s, i) == Some(PriceMatch(s[i], s[j..k]))
  {
  }

  /** A run of amount characters from `j` to `e` that cannot be extended is the run. */
  lemma {:induction false} RunIsMaximal(s: string, j: nat, e: nat)
    requires j <= e <= |s|
    requires forall t :: j <= t < e ==> IsAmountChar(s[t])
    requires e == |s| || !IsAmountChar(s[e])
    ensures RunLength(s, j) == e - j
    decreases e - j
  {
    if j < e {
      RunIsMaximal(s, j + 1, e);
    }
  }

  /** Strategy 3: price is the symbol followed by the amount, currency is the symbol. */
  function RegexPrice(html: string): (r: Option<PriceInfo>)
    ensures r.Some? ==>
              (exists i :: 0 <= i < |html| && MatchAt(html, i).Some?
                        && r.value == PriceInfo(Some([MatchAt(html, i).value.symbol] + MatchAt(html, i).value.amount),
                                                Some([MatchAt(html, i).value.symbol]))
                        && forall k :: 0 <= k < i ==> MatchAt(html, k).None?)
    ensures r.None? <==> forall k :: 0 <= k < |html| ==> MatchAt(html, k).None?
  {
    match FindPrice(html, 0)
    case Some((_, m)) => Some(PriceInfo(Some([m.symbol] + m.amount), Some([m.symbol])))
    case None => None
  }

  /** The text after an amount does not continue it: after digits and commas alone
      it is neither another digit or comma nor a dot followed by a digit, and after
      a dot and one digit it is not a second digit. */
  predicate AmountEndsBefore(a: string, post: string)
    requires AmountShape(a)
  {
    var n := RunLength(a, 0);
    if n == |a| then
      post == [] || (!IsAmountChar(post[0]) && !(post[0] == '.' && |post| > 1 && IsDigit(post[1])))
    else if |a| == n + 2 then post == [] || !IsDigit(post[0])
    else true
  }

  /** A price written in running text, with no currency symbol before it and nothing
      after it that would extend the amount, is read back whole. */
  lemma RegexReadsBack(pre: string, c: char, a: string, post: string)
    requires forall k :: 0 <= k < |pre| ==> !IsCurrencySymbol(pre[k])
    requires IsCurrencySymbol(c) && AmountShape(a) && AmountEndsBefore(a, post)
    ensures RegexPrice(pre + [c] + a + post) == Some(PriceInfo(Some([c] + a), Some([c])))
  {
    var s := pre + [c] + a + post;
    forall k | 0 <= k < |pre| ensures MatchAt(s, k).None? {
      assert s[k] == pre[k];
    }
    MatchInText(pre, c, a, post);
    var r := FindPrice(s, 0);
    assert r.Some? && r.value.0 == |pre|;
  }

  /** At the symbol, the pattern captures exactly the amount. */
  lemma MatchInText(pre: string, c: char, a: string, post: string)
    requires IsCurrencySymbol(c) && AmountShape(a) && AmountEndsBefore(a, post)
    ensures MatchAt(pre + [c] + a + post, |pre|) == Some(PriceMatch(c, a))
  {
    var s := pre + [c] + a + post;
    var i := |pre|;
    assert forall t :: 0 <= t < |a| ==> s[i + 1 + t] == a[t];
    assert forall t :: 0 <= t < |post| ==> s[i + 1 + |a| + t] == post[t];
    assert s[i] == c;
    MatchAtLayout(s, i, a, post);
  }

  lemma MatchAtLayout(s: string, i: nat, a: string, post: string)
    requires i < |s| && IsCurrencySymbol(s[i]) && AmountShape(a) && AmountEndsBefore(a, post)
    requires |s| == i + 1 + |a| + |post|
    requires forall t :: 0 <= t < |a| ==> s[i + 1 + t] == a[t]
    requires forall t :: 0 <= t < |post| ==> s[i + 1 + |a| + t] == post[t]
    ensures MatchAt(s, i) == Some(PriceMatch(s[i], a))
  {
    var n := RunLength(a, 0);
    assert AmountStart(s, i) == i + 1 by {
      assert s[i + 1] == a[0];
    }
    RunInText(s, i, a, post, n);
    FractionInText(s, i, a, post, n);
    MatchAtFound(s, i, i + 1, i + 1 + n, i + 1 + |a|);
    assert s[i + 1..i + 1 + |a|] == a;
  }

  lemma RunInText(s: string, i: nat, a: string, post: string, n: nat)
    requires AmountShape(a) && AmountEndsBefore(a, post) && n == RunLength(a, 0)
    requires |s| == i + 1 + |a| + |post|
    requires forall t :: 0 <= t < |a| ==> s[i + 1 + t] == a[t]
    requires forall t :: 0 <= t < |post| ==> s[i + 1 + |a| + t] == post[t]
    ensures RunLength(s, i + 1) == n
  {
    var k := i + 1 + n;
    assert forall t :: i + 1 <= t < k ==> IsAmountChar(s[t]) by {
      forall t | i + 1 <= t < k ensures IsAmountChar(s[t]) {
        assert s[t] == a[t - i - 1];
      }
    }
    if n < |a| {
      assert s[k] == a[n];
    } else if post != [] {
      assert s[k] == post[0];
    }
    RunIsMaximal(s, i + 1, k);
  }

  lemma FractionInText(s: string, i: nat, a: string, post: string, n: nat)
    requires AmountShape(a) && AmountEndsBefore(a, post) && n == RunLength(a, 0)
    requires |s| == i + 1 + |a| + |post|
    requires forall t :: 0 <= t < |a| ==> s[i + 1 + t] == a[t]
    requires forall t :: 0 <= t < |post| ==> s[i + 1 + |a| + t] == post[t]
    ensures FractionLength(s, i + 1 + n) == |a| - n
  {
    var k := i + 1 + n;
    if n == |a| {
      if post != [] {
        assert s[k] == post[0];
        if |post| > 1 {
          assert s[k + 1] == post[1];
        }
      }
    } else if |a| == n + 2 {
      assert s[k] == a[n] && s[k + 1] == a[n + 1];
      if post != [] {
        assert s[k + 2] == post[0];
      }
    } else {
      assert s[k] == a[n] && s[k + 1] == a[n + 1] && s[k + 2] == a[n + 2];
    }
  }

  // ---------------------------------------------------------------------
  // The strategies together

  /** The first strategy that produced a result. */
  function FirstHit(results: seq<Option<PriceInfo>>): (r: Option<PriceInfo>)
    ensures r.Some? ==> exists i :: 0 <= i < |results| && results[i] == r
                                    && forall j :: 0 <= j < i ==> results[j].None?
    ensures r.None? <==> forall i :: 0 <= i < |results| ==> results[i].None?
  {
    if results == [] then None
    else if results[0].Some? then results[0]
    else
      var r := FirstHit(results[1..]);
      assert forall i :: 1 <= i < |results| ==> results[i] == results[1..][i - 1];
      assert r.Some? ==> exists i :: 0 <= i < |results| && results[i] == r
                                     && forall j :: 0 <= j < i ==> results[j].None? by {
        if r.Some? {
          var i :| 0 <= i < |results[1..]| && results[1..][i] == r
                   && forall j :: 0 <= j < i ==> results[1..][j].None?;
          assert results[i + 1] == r;
        }
      }
      r
  }

  /** Open Graph tags, then JSON-LD, then the markup pattern, in that priority. */
  function PriceStrategies(doc: Document, html: string): seq<Option<PriceInfo>> {
    [OgPrice(doc), LdPrice(doc.ldJson), RegexPrice(html)]
  }

  /** `extractPriceAndCurrency`: the first strategy's result, else both null. */
  function ExtractPriceAndCurrency(doc: Document, html: string): (r: PriceInfo)
    ensures r.price.None? <==> forall i :: 0 <= i < 3 ==> PriceStrategies(doc, html)[i].None?
    ensures r.price.None? ==> r.currency.None?
    ensures r.price.Some? ==> exists i :: 0 <= i < 3 && PriceStrategies(doc, html)[i] == Some(r)
                                          && forall j :: 0 <= j < i ==> PriceStrategies(doc, html)[j].None?
  {
    var strategies := PriceStrategies(doc, html);
    var hit := FirstHit(strategies);
    assert hit.Some? ==> hit.value.price.Some? by {
      if hit.Some? {
        var i :| 0 <= i < 3 && strategies[i] == hit;
        StrategyPriced(doc, html, i);
      }
    }
    hit.GetOr(PriceInfo(None, None))
  }

  /** Every strategy that hits gives a price. */
  lemma StrategyPriced(doc: Document, html: string, i: nat)
    requires i < 3 && PriceStrategies(doc, html)[i].Some?
    ensures PriceStrategies(doc, html)[i].value.price.Some?
  {
    if i == 1 {
      var j :| 0 <= j < |doc.ldJson| && BlockHit(doc.ldJson[j]) && BlockInfo(doc.ldJson[j]) == LdPrice(doc.ldJson).value;
    }
  }

  /** An Open Graph amount decides the price even when JSON-LD or the markup offer a
      different one; JSON-LD decides over the markup pattern. */
  lemma PricePriority(doc: Document, html: string)
    ensures OgPrice(doc).Some? ==> ExtractPriceAndCurrency(doc, html) == OgPrice(doc).value
    ensures OgPrice(doc).None? && LdPrice(doc.ldJson).Some? ==>
              ExtractPriceAndCurrency(doc, html) == LdPrice(doc.ldJson).value
    ensures OgPrice(doc).None? && LdPrice(doc.ldJson).None? && RegexPrice(html).Some? ==>
              ExtractPriceAndCurrency(doc, html) == RegexPrice(html).value
  {
    var s := PriceStrategies(doc, html);
    assert s[1..][0] == s[1];
    assert s[1..][1..] == [s[2]];
  }

  /** `extractMeta`: title, image, price, currency and site name of a page. */
  function ExtractMeta(html: string, doc: Document, baseUrl: string): (r: Meta)
    ensures r.title == ExtractTitle(doc) && r.image == ExtractImage(doc, baseUrl)
    ensures r.price == ExtractPriceAndCurrency(doc, html).price
    ensures r.currency == ExtractPriceAndCurrency(doc, html).currency
    ensures r.siteName == ExtractSiteName(doc, baseUrl)
    ensures r.title != []
    ensures r.image.Some? ==> r.image.value != []
    ensures r.price.None? ==> r.currency.None?
  {
    var p := ExtractPriceAndCurrency(doc, html);
    var image := ExtractImage(doc, baseUrl);
    assert image.Some? ==> image.value != [] by {
      if image.Some? {
        var c := FirstTruthy(ImageCandidates(doc)).value;
        if !IsHttpUrl(c) && baseUrl != [] && Resolve(c, baseUrl).Some? {
          assert |Serialize(Resolve(c, baseUrl).value)| > 0;
        }
      }
    }
    Meta(ExtractTitle(doc), image, p.price, p.currency, ExtractSiteName(doc, baseUrl))
  }

  // ---------------------------------------------------------------------
  // Worked examples

  /** A page read without a base whose Open Graph tags give title, image, amount and
      currency, and which names no site: those tags decide every field, and the site
      name falls back to the (empty) base. */
  lemma OpenGraphWithoutBase(html: string, doc: Document, t: string, img: string,
                             amount: string, cur: string)
    requires t != [] && img != [] && amount != [] && cur != []
    requires "og:title" in doc.metaProperty && doc.metaProperty["og:title"] == t
    requires "og:image" in doc.metaProperty && doc.metaProperty["og:image"] == img
    requires "product:price:amount" in doc.metaProperty
             && doc.metaProperty["product:price:amount"] == amount
    requires "product:price:currency" in doc.metaProperty
             && doc.metaProperty["product:price:currency"] == cur
    requires "og:site_name" !in doc.metaProperty && "og:site_name" !in doc.metaName
    ensures ExtractMeta(html, doc, "") == Meta(t, Some(img), Some(cur + " " + amount), Some(cur), "")
  {
    OgTitleWins(doc, t);
    PricePriority(doc, html);
    assert ImageCandidates(doc)[0] == Some(img);
    assert SplitFirst("", ':') == ("", None);
  }

  /** The page of four Open Graph tags (title "Shoe", an absolute image, 19.99 USD). */
  lemma OpenGraphPageExample(html: string)
    ensures ExtractMeta(html, ShoePage(), "") ==
              Meta("Shoe", Some("http://x.com/a.jpg"), Some("USD 19.99"), Some("USD"), "")
  {
    OpenGraphWithoutBase(html, ShoePage(), "Shoe", "http://x.com/a.jpg", "19.99", "USD");
    assert "USD" + " " + "19.99" == "USD 19.99";
  }

  function ShoePage(): Document {
    Document(map["og:title" := "Shoe", "og:image" := "http://x.com/a.jpg",
                 "product:price:amount" := "19.99", "product:price:currency" := "USD"],
             map[], None, None, [])
  }

  /** A schema.org Product whose single offer has a price and a currency gives
      "{currency} {price}" and the currency. */
  lemma ProductOfferPrice(item: Json, price: string, cur: string)
    requires price != [] && cur != []
    requires item == JObj(map["@type" := JStr("Product"),
                              "offers" := JObj(map["price" := JStr(price), "priceCurrency" := JStr(cur)])])
    ensures ItemPrice(item) == Found(PriceInfo(Some(cur + " " + price), Some(cur)))
  {
    var offer := Field(item, "offers").value;
    assert OfferOf(offer) == Some(offer);
    assert Field(offer, "price") == Some(JStr(price));
    assert Field(offer, "priceCurrency") == Some(JStr(cur));
  }

  /** The usual JSON-LD shape, a number price with a string currency: the price is the
      currency, a space, and the number's text. */
  lemma ProductOfferNumberPrice(item: Json, t: string, cur: string)
    requires t != "0" && cur != []
    requires item == JObj(map["@type" := JStr("Product"),
                              "offers" := JObj(map["price" := JNum(t), "priceCurrency" := JStr(cur)])])
    ensures ItemPrice(item) == Found(PriceInfo(Some(cur + " " + t), Some(cur)))
  {
    var offer := Field(item, "offers").value;
    assert OfferOf(offer) == Some(offer);
    assert Field(offer, "price") == Some(JNum(t));
    assert Field(offer, "priceCurrency") == Some(JStr(cur));
  }

  /** A page with no price tags and one JSON-LD block holding such a Product takes its
      price from the offer, whatever the markup says. */
  lemma JsonLdPageExample(doc: Document, html: string, item: Json)
    requires item == JObj(map["@type" := JStr("Product"),
                              "offers" := JObj(map["price" := JStr("19.99"), "priceCurrency" := JStr("USD")])])
    requires doc == Document(map[], map[], None, None, [LdParsed(item)])
    ensures ExtractPriceAndCurrency(doc, html) == PriceInfo(Some("USD 19.99"), Some("USD"))
  {
    ProductOfferPrice(item, "19.99", "USD");
    assert ItemsOf(doc.ldJson[0].data) == [item];
    assert "USD" + " " + "19.99" == "USD 19.99";
    assert ScanItems([item]) == ItemPrice(item);
    assert LdPrice(doc.ldJson) == Some(PriceInfo(Some("USD 19.99"), Some("USD")));
    assert OgPrice(doc).None?;
    PricePriority(doc, html);
  }

  /** A path on the page's own host is not an absolute http(s) address. */
  lemma PathIsNotHttp(ref: string)
    requires StartsWith(ref, "/")
    ensures !IsHttpUrl(ref)
  {
    assert Lower(ref)[0] == '/';
  }

  /** An image source that is a path on the page's own host (it starts with one '/'
      and holds no ':', '?' or '#') takes the page's scheme and host. */
  lemma PathImageResolves(doc: Document, base: string, b: Url, ref: string)
    requires Parse(base) == Some(b) && b.host.Some?
    requires FirstTruthy(ImageCandidates(doc)) == Some(ref)
    requires StartsWith(ref, "/") && !StartsWith(ref, "//")
    requires ':' !in ref && '?' !in ref && '#' !in ref
    ensures ExtractImage(doc, base) == Some(b.scheme + "://" + b.host.value + ref)
  {
    ResolvePathAbsolute(ref, base, b);
    PathIsNotHttp(ref);
    var u := Url(b.scheme, b.host, ref, None, None);
    ResolvedImage(doc, base, ref, u);
    HostPathHref(u);
  }

  /** The href of a URL with a host, a path and nothing else. */
  lemma HostPathHref(u: Url)
    requires u.host.Some? && u.query.None? && u.fragment.None?
    ensures Serialize(u) == u.scheme + "://" + u.host.value + u.path
  {
    assert Hier(u) == "//" + u.host.value + u.path;
  }

  /** A first image that is not absolute and resolves against a non-empty base is
      replaced by the resolved href. */
  lemma ResolvedImage(doc: Document, base: string, ref: string, u: Url)
    requires FirstTruthy(ImageCandidates(doc)) == Some(ref) && !IsHttpUrl(ref)
    requires base != [] && Resolve(ref, base) == Some(u)
    ensures ExtractImage(doc, base) == Some(Serialize(u))
  {
    assert FirstTruthy(ImageCandidates(doc)).value == ref;
  }

  /** "/img/a.png" as the first image of a page at https://shop.example/p/1. */
  lemma RelativeImageExample(doc: Document, base: string)
    requires doc == Document(map[], map[], None, Some("/img/a.png"), [])
    requires base == "https://shop.example/p/1"
    ensures ExtractImage(doc, base) == Some("https://shop.example/img/a.png")
  {
    var ref := doc.firstImgSrc.value;
    OnlyImageTag(doc);
    var b := Url("https", Some("shop.example"), "/p/1", None, None);
    ShopBaseParses(base, b);
    ImagePathShape(ref);
    PathImageResolves(doc, base, b, ref);
  }

  lemma OnlyImageTag(doc: Document)
    requires doc == Document(map[], map[], None, Some("/img/a.png"), [])
    ensures FirstTruthy(ImageCandidates(doc)) == doc.firstImgSrc
  {
    assert ImageCandidates(doc) == [None, None, Some("/img/a.png")];
  }

  lemma ImagePathShape(ref: string)
    requires ref == "/img/a.png"
    ensures StartsWith(ref, "/") && !StartsWith(ref, "//")
    ensures ':' !in ref && '?' !in ref && '#' !in ref
    ensures "https" + "://" + "shop.example" + ref == "https://shop.example/img/a.png"
  {
    assert ref[..1] == "/" && ref[1] == 'i';
  }
}

=== FILE: preview.dfy ===
/** The `POST /api/preview` handler: input validation, the raw-markup path, the fetch
    path with its protocol allow-list, the 512 KiB streaming cap and the mapping of
    failures to HTTP statuses. The network, the timer and the HTML parser are
    parameters: `fetch` answers for a URL, a body is the finite sequence of events the
    stream delivers before the five-second timer fires, `load` builds the document
    the selectors read, and `decode` is UTF-8 decoding. */
module Preview {
  import opened Wrappers
  import opened Text
  import opened Urls
  import opened Extract

  /** At most 512 KiB of response body is read. */
  const MaxHtmlSize: nat := 512 * 1024

  /** The JSON body of the request; a missing field is None. */
  datatype Request = Request(url: Option<string>, rawHtml: Option<string>)

  /** A JavaScript error as the handler inspects it: `name`, `message` and the
      `type` tag node-fetch puts on its own errors. */
  datatype FetchError = FetchError(name: string, message: string, errType: string)

  /** What the response body stream emits. */
  datatype StreamEvent = Data(chunk: seq<bv8>) | End | Failed(err: FetchError)

  /** The outcome of `fetch(href, ...)`: a rejection, or a response with its
      Content-Type header and its body stream (None when there is no body). */
  datatype FetchResult =
    | Rejected(err: FetchError)
    | Responded(contentType: Option<string>, body: Option<seq<StreamEvent>>)

  /** The JSON reply: the extracted fields with the source URL, or an error status
      with its message. */
  datatype Response =
    | Ok(meta: Meta, sourceUrl: Option<string>)
    | Error(status: nat, message: string)

  /** The reply together with the URL the handler fetched, if it fetched at all. */
  datatype Outcome = Outcome(response: Response, fetched: Option<string>)

  /** How reading the body ended: the end event with the bytes kept, an error event
      (or the timer's abort), or the data handler finding the cap passed. */
  datatype ReadResult = Complete(bytes: seq<bv8>) | ReadFailed(err: FetchError) | TooLarge

  /** The error the data handler rejects with once the cap is passed. */
  const SizeError := FetchError("Error", "MAX_HTML_SIZE_EXCEEDED", "")

  /** The error an aborted request reports: how the five-second timer ends a stream
      that has not settled. */
  const AbortedError := FetchError("AbortError", "The user aborted a request.", "aborted")

  // ---------------------------------------------------------------------
  // Reading the body

  /** The reader from event `i` on, with `total` bytes counted and `acc` kept: data is
      counted before it is kept, and the count passing the cap rejects. */
  function ReadFrom(events: seq<StreamEvent>, i: nat, total: nat, acc: seq<bv8>): ReadResult
    requires i <= |events|
    decreases |events| - i
  {
    if i == |events| then ReadFailed(AbortedError)
    else match events[i]
      case End => Complete(acc)
      case Failed(e) => ReadFailed(e)
      case Data(c) =>
        if total + |c| > MaxHtmlSize then TooLarge
        else ReadFrom(events, i + 1, total + |c|, acc + c)
  }

  function Read(events: seq<StreamEvent>): ReadResult {
    ReadFrom(events, 0, 0, [])
  }

  /** The streaming read as the handler performs it, one event at a time. */
  method ReadBody(events: seq<StreamEvent>) returns (r: ReadResult)
    ensures r == Read(events) == Expected(events)
    ensures r.Complete? ==> |r.bytes| <= MaxHtmlSize
  {
    ReadIsExpected(events);
    var i := 0;
    var total := 0;
    var chunks: seq<bv8> := [];
    while i < |events|
      invariant 0 <= i <= |events|
      invariant total == |chunks| <= MaxHtmlSize
      invariant ReadFrom(events, i, total, chunks) == Read(events)
    {
      match events[i]
      case End =>
        return Complete(chunks);
      case Failed(e) =>
        return ReadFailed(e);
      case Data(c) =>
        total := total + |c|;
        if total > MaxHtmlSize {
          return TooLarge;
        }
        chunks := chunks + c;
      i := i + 1;
    }
    r := ReadFailed(AbortedError);
  }

  // ---------------------------------------------------------------------
  // The reader described by where the stream stops

  /** The events before `k` are all data. */
  predicate AllData(events: seq<StreamEvent>, k: nat)
    requires k <= |events|
  {
    forall j :: 0 <= j < k ==> events[j].Data?
  }

  /** The index of the first event that is not data, or the length when there is none. */
  function StopIndex(events: seq<StreamEvent>, from: nat): (s: nat)
    requires from <= |events|
    ensures from <= s <= |events|
    ensures forall j :: from <= j < s ==> events[j].Data?
    ensures s < |events| ==> !events[s].Data?
    decreases |events| - from
  {
    if from == |events| || !events[from].Data? then from else StopIndex(events, from + 1)
  }

  /** The bytes of the first `k` events, all of which are data. */
  function Concat(events: seq<StreamEvent>, k: nat): seq<bv8>
    requires k <= |events| && AllData(events, k)
  {
    if k == 0 then [] else Concat(events, k - 1) + events[k - 1].chunk
  }

  /** What reading yields, read off the stop event: more than the cap of data before it
      is too large; otherwise an end completes with all the data, a failure
      rejects with that failure, and a stream that does not stop is aborted. */
  function Expected(events: seq<StreamEvent>): ReadResult {
    var s := StopIndex(events, 0);
    var data := Concat(events, s);
    if |data| > MaxHtmlSize then TooLarge
    else if s == |events| then ReadFailed(AbortedError)
    else if events[s].End? then Complete(data)
    else ReadFailed(events[s].err)
  }

  /** Data only accumulates. */
  lemma {:induction false} ConcatGrows(events: seq<StreamEvent>, i: nat, j: nat)
    requires i <= j <= |events| && AllData(events, j)
    ensures |Concat(events, i)| <= |Concat(events, j)|
    decreases j
  {
    if i < j {
      ConcatGrows(events, i, j - 1);
    }
  }

  /** The event-by-event reader agrees with the description by the stop event. */
  lemma ReadIsExpected(events: seq<StreamEvent>)
    ensures Read(events) == Expected(events)
  {
    ReadFromIsExpected(events, 0);
  }

  lemma {:induction false} ReadFromIsExpected(events: seq<StreamEvent>, i: nat)
    requires i <= StopIndex(events, 0)
    requires |Concat(events, i)| <= MaxHtmlSize
    ensures ReadFrom(events, i, |Concat(events, i)|, Concat(events, i)) == Expected(events)
    decreases |events| - i
  {
    var s := StopIndex(events, 0);
    if i < s {
      var c := events[i].chunk;
      assert Concat(events, i + 1) == Concat(events, i) + c;
      if |Concat(events, i)| + |c| > MaxHtmlSize {
        ConcatGrows(events, i + 1, s);
      } else {
        ReadFromIsExpected(events, i + 1);
      }
    }
  }

  /** A body that keeps delivering data past the cap is too large, whatever it would
      have sent afterwards. */
  lemma OverCapRejected(events: seq<StreamEvent>, k: nat)
    requires k <= |events| && AllData(events, k)
    requires |Concat(events, k)| > MaxHtmlSize
    ensures Read(events) == TooLarge
  {
    ReadIsExpected(events);
    StopAfterData(events, 0, k);
    ConcatGrows(events, k, StopIndex(events, 0));
  }

  /** The stream cannot stop inside a run of data. */
  lemma {:induction false} StopAfterData(events: seq<StreamEvent>, from: nat, k: nat)
    requires from <= k <= |events| && AllData(events, k)
    ensures StopIndex(events, from) >= k
    decreases k - from
  {
    if from < k {
      StopAfterData(events, from + 1, k);
    }
  }

  /** A completed read holds every data chunk up to the end event, within the cap. */
  lemma CompleteIsEverything(events: seq<StreamEvent>)
    requires Read(events).Complete?
    ensures var s := StopIndex(events, 0);
            && s < |events| && events[s].End?
            && Read(events).bytes == Concat(events, s)
            && |Read(events).bytes| <= MaxHtmlSize
  {
    ReadIsExpected(events);
  }

  // ---------------------------------------------------------------------
  // Failures to statuses

  /** The catch block: an abort is a timeout (504), the reader's own size rejection is
      413, too many redirects is 400 with its own message, anything else 400 with the
      error's message when it has one. */
  function MapError(e: FetchError): (r: Response)
    ensures r.Error?
    ensures r.status == 504 <==> e.name == "AbortError" || e.message == "The user aborted a request."
    ensures r.status == 413 <==> r.status != 504 && e.message == "MAX_HTML_SIZE_EXCEEDED"
    ensures r.status == 400 <==> r.status != 504 && r.status != 413
    ensures r.status == 400 && e.errType != "max-redirect" ==>
              r.message == if e.message != [] then e.message else "Fetch failed"
  {
    if e.name == "AbortError" || e.message == "The user aborted a request." then
      Error(504, "Fetch timed out")
    else if e.message == "MAX_HTML_SIZE_EXCEEDED" then Error(413, "Max HTML size exceeded")
    else if e.errType == "max-redirect" then Error(400, "Too many redirects")
    else Error(400, if e.message != [] then e.message else "Fetch failed")
  }

  /** The error the body promise settles with when the read does not complete. When
      the cap is passed, the size rejection settles it: the data handler rejects
      before it aborts the request. */
  function SettledError(r: ReadResult): (e: FetchError)
    requires !r.Complete?
    ensures r.TooLarge? ==> e == SizeError
    ensures r.ReadFailed? ==> e == r.err
  {
    if r.TooLarge? then SizeError else r.err
  }

  /** The same, in the order the handler calls them: `controller.abort()` runs first,
      and node-fetch answers an abort by emitting its AbortError on the body stream at
      once, so the error listener settles the promise before the size rejection. */
  function SettledErrorAsWritten(r: ReadResult): (e: FetchError)
    requires !r.Complete?
    ensures r.TooLarge? ==> e == AbortedError
    ensures r.ReadFailed? ==> e == r.err
  {
    if r.TooLarge? then AbortedError else r.err
  }

  /** The reader's two own failures land on their statuses. */
  lemma ReaderErrorsMapped()
    ensures MapError(SettledError(TooLarge)) == Error(413, "Max HTML size exceeded")
    ensures MapError(AbortedError) == Error(504, "Fetch timed out")
  {
  }

  /** In the order the handler is written, a body over the cap is answered as a
      timeout, 504, never 413. */
  lemma OversizedAsWrittenTimesOut(events: seq<StreamEvent>, k: nat)
    requires k <= |events| && AllData(events, k)
    requires |Concat(events, k)| > MaxHtmlSize
    ensures Read(events) == TooLarge
    ensures MapError(SettledErrorAsWritten(Read(events))) == Error(504, "Fetch timed out")
    ensures MapError(SettledError(Read(events))) == Error(413, "Max HTML size exceeded")
  {
    OverCapRejected(events, k);
  }

  // ---------------------------------------------------------------------
  // The handler

  /** The fetched response once the request is sent: the content type must mention
      text/html (case-insensitively), there must be a body, and the body must be read
      within the cap before extraction. */
  function HandleResponse(href: string, result: FetchResult,
                          load: string -> Document, decode: seq<bv8> -> string): (r: Response)
    ensures r.Ok? ==> && result.Responded?
                      && Contains(Lower(result.contentType.GetOr("")), "text/html")
                      && result.body.Some? && Read(result.body.value).Complete?
                      && r.sourceUrl == Some(href)
    ensures r.Error? ==> r.status in {400, 413, 504}
    ensures result.Rejected? ==> r == MapError(result.err)
    ensures result.Responded? && !Contains(Lower(result.contentType.GetOr("")), "text/html") ==>
              r == Error(400, "Content-Type is not text/html")
    ensures (result.Responded? && Contains(Lower(result.contentType.GetOr("")), "text/html")
             && result.body.None?) ==> r == Error(400, "Empty response body")
    ensures (result.Responded? && Contains(Lower(result.contentType.GetOr("")), "text/html")
             && result.body.Some?) ==>
              var read := Read(result.body.value);
              && (read.Complete? ==>
                    var html := decode(read.bytes);
                    r == Ok(ExtractMeta(html, load(html), href), Some(href)))
              && (!read.Complete? ==> r == MapError(SettledError(read)))
  {
    match result
    case Rejected(e) => MapError(e)
    case Responded(contentType, body) =>
      if !Contains(Lower(contentType.GetOr("")), "text/html") then
        Error(400, "Content-Type is not text/html")
      else if body.None? then Error(400, "Empty response body")
      else
        var read := Read(body.value);
        if read.Complete? then
          var html := decode(read.bytes);
          Ok(ExtractMeta(html, load(html), href), Some(href))
        else MapError(SettledError(read))
  }

  /** The handler: validation, then the raw-markup path (never fetches), then the
      fetch path, which only requests absolute http: and https: URLs. */
  function Handle(req: Request, fetch: string -> FetchResult,
                  load: string -> Document, decode: seq<bv8> -> string): (o: Outcome)
    ensures !Truthy(req.url) && !Truthy(req.rawHtml) ==>
              o == Outcome(Error(400, "url or raw_html is required"), None)
    ensures Truthy(req.rawHtml) ==>
              && o.fetched.None?
              && o.response == Ok(ExtractMeta(req.rawHtml.value, load(req.rawHtml.value),
                                              if Truthy(req.url) then req.url.value else ""),
                                  if Truthy(req.url) then req.url else None)
    ensures o.fetched.Some? ==>
              && Truthy(req.url) && !Truthy(req.rawHtml)
              && Parse(req.url.value).Some?
              && Protocol(Parse(req.url.value).value) in {"http:", "https:"}
              && o.fetched.value == Serialize(Parse(req.url.value).value)
    ensures Truthy(req.url) && !Truthy(req.rawHtml) && o.fetched.None? ==>
              o.response.Error? && o.response.status == 400
    ensures Truthy(req.url) && !Truthy(req.rawHtml) && Parse(req.url.value).Some?
            && Protocol(Parse(req.url.value).value) in {"http:", "https:"} ==>
              var href := Serialize(Parse(req.url.value).value);
              o == Outcome(HandleResponse(href, fetch(href), load, decode), Some(href))
    ensures o.response.Error? ==> o.response.status in {400, 413, 504}
  {
    if !Truthy(req.url) && !Truthy(req.rawHtml) then
      Outcome(Error(400, "url or raw_html is required"), None)
    else if Truthy(req.rawHtml) then
      var raw := req.rawHtml.value;
      var base := if Truthy(req.url) then req.url.value else "";
      Outcome(Ok(ExtractMeta(raw, load(raw), base), if Truthy(req.url) then req.url else None), None)
    else match Parse(req.url.value)
      case None => Outcome(Error(400, "Invalid URL"), None)
      case Some(u) =>
        if Protocol(u) !in {"http:", "https:"} then Outcome(Error(400, "Invalid URL protocol"), None)
        else
          var href := Serialize(u);
          Outcome(HandleResponse(href, fetch(href), load, decode), Some(href))
  }

  // ---------------------------------------------------------------------
  // Properties of the handler

  /** A successful fetch read no more than the cap, and the reply names the fetched URL. */
  lemma FetchedReplyWithinCap(req: Request, fetch: string -> FetchResult,
                              load: string -> Document, decode: seq<bv8> -> string)
    requires Handle(req, fetch, load, decode).fetched.Some?
    requires Handle(req, fetch, load, decode).response.Ok?
    ensures var href := Handle(req, fetch, load, decode).fetched.value;
            && fetch(href).Responded? && fetch(href).body.Some?
            && Read(fetch(href).body.value).Complete?
            && |Read(fetch(href).body.value).bytes| <= MaxHtmlSize
            && Handle(req, fetch, load, decode).response.sourceUrl == Some(href)
  {
    var href := Handle(req, fetch, load, decode).fetched.value;
    CompleteIsEverything(fetch(href).body.value);
  }

  /** An html response whose body streams more than 512 KiB before it ends is answered
      413, however long it would have gone on. */
  lemma OversizedBodyIs413(req: Request, fetch: string -> FetchResult,
                           load: string -> Document, decode: seq<bv8> -> string, k: nat)
    requires Truthy(req.url) && !Truthy(req.rawHtml)
    requires Parse(req.url.value).Some?
    requires Protocol(Parse(req.url.value).value) in {"http:", "https:"}
    requires var r := fetch(Serialize(Parse(req.url.value).value));
             && r.Responded? && Contains(Lower(r.contentType.GetOr("")), "text/html")
             && r.body.Some? && k <= |r.body.value| && AllData(r.body.value, k)
             && |Concat(r.body.value, k)| > MaxHtmlSize
    ensures Handle(req, fetch, load, decode).response == Error(413, "Max HTML size exceeded")
  {
    var r := fetch(Serialize(Parse(req.url.value).value));
    OverCapRejected(r.body.value, k);
  }

  /** An http(s) page served as text/html whose body ends within the cap is answered
      with what the extractor reads from all of its bytes, against the fetched href;
      without og:site_name the site name is the URL's hostname. */
  lemma HtmlWithinCapIsRead(req: Request, fetch: string -> FetchResult,
                            load: string -> Document, decode: seq<bv8> -> string, k: nat)
    requires Truthy(req.url) && !Truthy(req.rawHtml)
    requires Parse(req.url.value).Some?
    requires Protocol(Parse(req.url.value).value) in {"http:", "https:"}
    requires var r := fetch(Serialize(Parse(req.url.value).value));
             && r.Responded? && Contains(Lower(r.contentType.GetOr("")), "text/html")
             && r.body.Some? && k < |r.body.value| && AllData(r.body.value, k)
             && r.body.value[k].End? && |Concat(r.body.value, k)| <= MaxHtmlSize
    ensures var u := Parse(req.url.value).value;
            var href := Serialize(u);
            var html := decode(Concat(fetch(href).body.value, k));
            var o := Handle(req, fetch, load, decode);
            && o.fetched == Some(href)
            && o.response == Ok(ExtractMeta(html, load(html), href), Some(href))
            && (!Truthy(GetMeta(load(html), "og:site_name", Property)) ==>
                  o.response.meta.siteName == Hostname(u))
  {
    var u := Parse(req.url.value).value;
    var href := Serialize(u);
    var events := fetch(href).body.value;
    ReadIsExpected(events);
    StopAfterData(events, 0, k);
    assert StopIndex(events, 0) == k;
    var html := decode(Concat(events, k));
    ParseWellFormed(req.url.value);
    if !Truthy(GetMeta(load(html), "og:site_name", Property)) {
      SiteNameOfHref(load(html), u);
    }
  }

  /** A URL the parser rejects, or one with another scheme, is refused before any
      request is made. */
  lemma NonHttpNeverFetched(req: Request, fetch: string -> FetchResult,
                            load: string -> Document, decode: seq<bv8> -> string)
    requires Truthy(req.url) && !Truthy(req.rawHtml)
    requires Parse(req.url.value).None? || Protocol(Parse(req.url.value).value) !in {"http:", "https:"}
    ensures Handle(req, fetch, load, decode).fetched.None?
    ensures Handle(req, fetch, load, decode).response.Error?
    ensures Handle(req, fetch, load, decode).response.status == 400
  {
  }
}

=== FILE: ssrf.dfy ===
/** The private-address classifier of the preview server: textual tests for IPv6
    loopback, link-local and unique-local prefixes, IPv4-mapped addresses, and the
    IPv4 ranges of RFC 1918 section 3 and RFC 6890 sections 2.2.2 and 2.2.3. */
module Ssrf {
  import opened Wrappers
  import opened Text

  // ---------------------------------------------------------------------
  // Octets: `Number(p)` on the pieces of `ip.split(".")`

  predicate AllDigits(s: string) {
    forall i :: 0 <= i < |s| ==> IsDigit(s[i])
  }

  /** The decimal value of a digit string (the empty string is 0). */
  function DigitsValue(s: string): nat
    requires AllDigits(s)
  {
    if s == [] then 0
    else DigitsValue(s[..|s| - 1]) * 10 + (s[|s| - 1] as int - '0' as int)
  }

  /** `Number(p)` for a piece of a dotted address: None stands for NaN. The empty
      string converts to 0; every piece that is not a run of decimal digits is
      treated as NaN. */
  function ToNumber(p: string): (r: Option<nat>)
    ensures r.Some? <==> AllDigits(p)
    ensures p == [] ==> r == Some(0)
  {
    if AllDigits(p) then Some(DigitsValue(p)) else None
  }

  // ---------------------------------------------------------------------
  // isPrivateIPv4 / isPrivateIP

  /** The four numbers of a dotted address, when it splits into exactly four
      numeric pieces. */
  function Octets(ip: string): (r: Option<seq<nat>>)
    ensures r.Some? ==> |r.value| == 4
    ensures r.Some? <==> |Split(ip, '.')| == 4
                          && forall i :: 0 <= i < 4 ==> AllDigits(Split(ip, '.')[i])
    ensures r.Some? ==> forall i :: 0 <= i < 4 ==> ToNumber(Split(ip, '.')[i]) == Some(r.value[i])
  {
    var parts := Split(ip, '.');
    if |parts| != 4 then None
    else if !(AllDigits(parts[0]) && AllDigits(parts[1]) && AllDigits(parts[2]) && AllDigits(parts[3]))
    then None
    else Some([DigitsValue(parts[0]), DigitsValue(parts[1]), DigitsValue(parts[2]), DigitsValue(parts[3])])
  }

  /** The range tests of `isPrivateIPv4`, on the first two numbers. */
  predicate PrivateLeading(a: nat, b: nat) {
    || a == 10
    || a == 127
    || (a == 169 && b == 254)
    || (a == 192 && b == 168)
    || (a == 172 && 16 <= b <= 31)
  }

  /** `isPrivateIPv4`: anything that is not four numeric pieces is not private. */
  function IsPrivateIPv4(ip: string): (r: bool)
    ensures r ==> Octets(ip).Some?
    ensures Octets(ip).Some? ==> (r <==> PrivateLeading(Octets(ip).value[0], Octets(ip).value[1]))
  {
    match Octets(ip)
    case None => false
    case Some(n) =>
      if n[0] == 10 then true
      else if n[0] == 127 then true
      else if n[0] == 169 && n[1] == 254 then true
      else if n[0] == 192 && n[1] == 168 then true
      else if n[0] == 172 && n[1] >= 16 && n[1] <= 31 then true
      else false
  }

  const MappedPrefix := "::ffff:"

  /** `isPrivateIP`: the IPv6 prefix tests on the lower-cased text in order, then the
      IPv4-mapped form, then plain dotted IPv4. */
  function IsPrivateIP(ip: string): (r: bool)
    ensures ip == [] ==> !r
    ensures Lower(ip) == "::1" ==> r
    ensures (StartsWith(Lower(ip), "fe80:") || StartsWith(Lower(ip), "fc")
             || StartsWith(Lower(ip), "fd")) ==> r
    ensures ('.' !in ip && Lower(ip) != "::1" && !StartsWith(Lower(ip), "fe80:")
             && !StartsWith(Lower(ip), "fc") && !StartsWith(Lower(ip), "fd")) ==> !r
    ensures ('.' in ip && Lower(ip) != "::1" && !StartsWith(Lower(ip), "fe80:")
             && !StartsWith(Lower(ip), "fc") && !StartsWith(Lower(ip), "fd")
             && !StartsWith(Lower(ip), MappedPrefix)) ==> r == IsPrivateIPv4(ip)
  {
    if ip == [] then false
    else
      var low := Lower(ip);
      if low == "::1" then true
      else if StartsWith(low, "fe80:") then true
      else if StartsWith(low, "fc") || StartsWith(low, "fd") then true
      else if StartsWith(low, MappedPrefix) then
        assert '.' !in ip ==> '.' !in low;
        IsPrivateIPv4(MappedPart(low))
      else if '.' in ip then IsPrivateIPv4(ip)
      else false
  }

  /** `low.split("::ffff:")[1]` for text that begins with the prefix: what follows it,
      up to the next occurrence of the prefix. */
  function MappedPart(low: string): (m: string)
    requires StartsWith(low, MappedPrefix)
    ensures StartsWith(low[7..], m)
    ensures forall j :: 0 <= j < |m| ==> !OccursAt(low[7..], MappedPrefix, j)
    ensures |m| == |low| - 7 || OccursAt(low[7..], MappedPrefix, |m|)
    ensures '.' in m ==> '.' in low
  {
    var m := BeforeSub(low[7..], MappedPrefix);
    assert forall i :: 0 <= i < |m| ==> m[i] == low[7 + i];
    m
  }

  /** An IPv4-mapped address is classified by the embedded dotted text alone; when the
      prefix does not occur again, that is everything after it. */
  lemma MappedUsesEmbedded(ip: string, rest: string)
    requires Lower(ip) == MappedPrefix + rest
    ensures IsPrivateIP(ip) == IsPrivateIPv4(MappedPart(Lower(ip)))
    ensures (forall j :: !OccursAt(rest, MappedPrefix, j)) ==> IsPrivateIP(ip) == IsPrivateIPv4(rest)
  {
    var low := Lower(ip);
    assert ip != [];
    assert low[0] == ':' && low[2] == 'f';
    assert low != "::1";
    assert !StartsWith(low, "fe80:") && !StartsWith(low, "fc") && !StartsWith(low, "fd");
    assert StartsWith(low, MappedPrefix);
    assert low[7..] == rest;
    var m := BeforeSub(rest, MappedPrefix);
    assert MappedPart(low) == m;
    if forall j :: !OccursAt(rest, MappedPrefix, j) {
      assert |m| == |rest|;
      assert m == rest;
    }
  }

  // ---------------------------------------------------------------------
  // Reference definition: CIDR blocks on the 32-bit address

  /** An address block: the network address and the length of its prefix in bits. */
  datatype Cidr = Cidr(network: nat, prefixLen: nat)

  /** 10.0.0.0/8, 127.0.0.0/8, 169.254.0.0/16, 172.16.0.0/12 and 192.168.0.0/16. */
  const PrivateBlocks: seq<Cidr> := [
    Cidr(0x0A00_0000, 8), Cidr(0x7F00_0000, 8), Cidr(0xA9FE_0000, 16),
    Cidr(0xAC10_0000, 12), Cidr(0xC0A8_0000, 16)
  ]

  function Pow2(n: nat): (p: nat)
    ensures p >= 1
  {
    if n == 0 then 1 else 2 * Pow2(n - 1)
  }

  /** The address agrees with the block's network on the first `prefixLen` bits. */
  predicate InBlock(addr: nat, c: Cidr)
    requires c.prefixLen <= 32
  {
    addr / Pow2(32 - c.prefixLen) == c.network / Pow2(32 - c.prefixLen)
  }

  /** The 32-bit address of four octets. */
  function Address(a: nat, b: nat, c: nat, d: nat): nat {
    ((a * 256 + b) * 256 + c) * 256 + d
  }

  predicate InPrivateBlock(addr: nat) {
    exists i :: 0 <= i < |PrivateBlocks| && InBlock(addr, PrivateBlocks[i])
  }

  lemma Pow2Values()
    ensures Pow2(16) == 0x1_0000 && Pow2(20) == 0x10_0000 && Pow2(24) == 0x100_0000
  {
    assert Pow2(4) == 16;
    assert Pow2(8) == 256 by { Pow2Add(4, 4); }
    assert Pow2(16) == 0x1_0000 by { Pow2Add(8, 8); }
    assert Pow2(20) == 0x10_0000 by { Pow2Add(16, 4); }
    assert Pow2(24) == 0x100_0000 by { Pow2Add(16, 8); }
  }

  lemma {:induction false} Pow2Add(m: nat, n: nat)
    ensures Pow2(m + n) == Pow2(m) * Pow2(n)
  {
    if m > 0 {
      Pow2Add(m - 1, n);
    }
  }

  /** The /8, /16 and /12 prefixes of an address, in terms of its octets. */
  lemma AddressPrefixes(a: nat, b: nat, c: nat, d: nat)
    requires a < 256 && b < 256 && c < 256 && d < 256
    ensures Address(a, b, c, d) / 0x100_0000 == a
    ensures Address(a, b, c, d) / 0x1_0000 == a * 256 + b
    ensures Address(a, b, c, d) / 0x10_0000 == a * 16 + b / 16
  {
    var low := c * 256 + d;
    assert low < 0x1_0000;
    assert Address(a, b, c, d) == (a * 256 + b) * 0x1_0000 + low;
    assert Address(a, b, c, d) == a * 0x100_0000 + (b * 0x1_0000 + low);
    assert Address(a, b, c, d) == (a * 16 + b / 16) * 0x10_0000 + ((b % 16) * 0x1_0000 + low);
  }

  /** The source's tests on the first two octets are exactly membership in the five
      private blocks, for every address whose octets are below 256. */
  lemma PrivateLeadingIsBlocks(a: nat, b: nat, c: nat, d: nat)
    requires a < 256 && b < 256 && c < 256 && d < 256
    ensures PrivateLeading(a, b) <==> InPrivateBlock(Address(a, b, c, d))
  {
    var addr := Address(a, b, c, d);
    AddressPrefixes(a, b, c, d);
    var hits := [a == 10, a == 127, a * 256 + b == 169 * 256 + 254,
                 a * 16 + b / 16 == 172 * 16 + 1, a * 256 + b == 192 * 256 + 168];
    forall i | 0 <= i < 5 ensures InBlock(addr, PrivateBlocks[i]) <==> hits[i] {
      BlockTest(addr, i);
    }
    if PrivateLeading(a, b) {
      var i := if a == 10 then 0 else if a == 127 then 1 else if a == 169 then 2
               else if a == 172 then 3 else 4;
      assert hits[i];
    } else {
      assert forall i :: 0 <= i < 5 ==> !hits[i];
    }
  }

  /** Membership in each private block, as a test on the address's leading bits. */
  lemma BlockTest(addr: nat, i: nat)
    requires i < 5
    ensures InBlock(addr, PrivateBlocks[i]) <==>
              [addr / 0x100_0000 == 10, addr / 0x100_0000 == 127, addr / 0x1_0000 == 169 * 256 + 254,
               addr / 0x10_0000 == 172 * 16 + 1, addr / 0x1_0000 == 192 * 256 + 168][i]
  {
    Pow2Values();
    var blk := PrivateBlocks[i];
    var size := Pow2(32 - blk.prefixLen);
    if i == 0 || i == 1 {
      assert size == 0x100_0000;
    } else if i == 3 {
      assert size == 0x10_0000;
    } else {
      assert size == 0x1_0000;
    }
    assert i == 0 ==> blk.network / size == 10;
    assert i == 1 ==> blk.network / size == 127;
    assert i == 2 ==> blk.network / size == 169 * 256 + 254;
    assert i == 3 ==> blk.network / size == 172 * 16 + 1;
    assert i == 4 ==> blk.network / size == 192 * 256 + 168;
  }

  // ---------------------------------------------------------------------
  // Dotted-quad text

  function DigitChar(n: nat): (c: char)
    requires n < 10
    ensures IsDigit(c) && c as int - '0' as int == n
  {
    ('0' as int + n) as char
  }

  /** The shortest decimal text of a number. */
  function Decimal(n: nat): (s: string)
    ensures s != [] && AllDigits(s)
    decreases n
  {
    if n < 10 then [DigitChar(n)] else Decimal(n / 10) + [DigitChar(n % 10)]
  }

  lemma {:induction false} DecimalValue(n: nat)
    ensures DigitsValue(Decimal(n)) == n
    decreases n
  {
    if n >= 10 {
      var s := Decimal(n);
      assert s[..|s| - 1] == Decimal(n / 10);
      DecimalValue(n / 10);
    }
  }

  /** `Number` reads the decimal text of every number back. */
  lemma ToNumberDecimal(n: nat)
    ensures ToNumber(Decimal(n)) == Some(n)
  {
    DecimalValue(n);
  }

  /** Leading zeros do not change a piece's number: "010" is 10, not octal. */
  lemma {:induction false} ToNumberLeadingZero(p: string)
    requires AllDigits(p)
    ensures ToNumber(['0'] + p) == ToNumber(p)
    decreases |p|
  {
    var q := ['0'] + p;
    assert AllDigits(q);
    if p != [] {
      assert q[..|q| - 1] == ['0'] + p[..|p| - 1];
      assert q[|q| - 1] == p[|p| - 1];
      ToNumberLeadingZero(p[..|p| - 1]);
    } else {
      assert q[..|q| - 1] == [];
    }
  }

  function QuadPieces(a: nat, b: nat, c: nat, d: nat): (ps: seq<string>)
    ensures |ps| == 4 && forall i :: 0 <= i < 4 ==> ps[i] != [] && AllDigits(ps[i])
  {
    [Decimal(a), Decimal(b), Decimal(c), Decimal(d)]
  }

  /** `a.b.c.d` written in decimal. */
  function DottedQuad(a: nat, b: nat, c: nat, d: nat): string {
    Join(QuadPieces(a, b, c, d), '.')
  }

  /** Joining digit strings with '.' gives text of digits and dots only. */
  lemma {:induction false} JoinDigits(ps: seq<string>)
    requires forall i :: 0 <= i < |ps| ==> AllDigits(ps[i])
    ensures forall j :: 0 <= j < |Join(ps, '.')| ==> IsDigit(Join(ps, '.')[j]) || Join(ps, '.')[j] == '.'
  {
    if |ps| > 1 {
      JoinDigits(ps[1..]);
      var rest := Join(ps[1..], '.');
      assert Join(ps, '.') == ps[0] + ['.'] + rest;
      forall j | 0 <= j < |Join(ps, '.')|
        ensures IsDigit(Join(ps, '.')[j]) || Join(ps, '.')[j] == '.'
      {
        if j > |ps[0]| {
          assert Join(ps, '.')[j] == rest[j - |ps[0]| - 1];
        }
      }
    }
  }

  /** The shape of a dotted quad: it begins with a digit, holds a dot, consists of
      digits and dots only, and is already lower case. */
  lemma QuadShape(a: nat, b: nat, c: nat, d: nat)
    ensures var q := DottedQuad(a, b, c, d);
            q != [] && IsDigit(q[0]) && '.' in q && Lower(q) == q
            && forall j :: 0 <= j < |q| ==> IsDigit(q[j]) || q[j] == '.'
  {
    var ps := QuadPieces(a, b, c, d);
    var q := DottedQuad(a, b, c, d);
    assert q == ps[0] + ['.'] + Join(ps[1..], '.');
    assert q[|ps[0]|] == '.';
    assert q[0] == ps[0][0];
    JoinDigits(ps);
    forall j | 0 <= j < |q| ensures LowerChar(q[j]) == q[j] {
    }
    LowerOfLower(q);
  }

  lemma DottedQuadSplits(a: nat, b: nat, c: nat, d: nat)
    ensures Octets(DottedQuad(a, b, c, d)) == Some([a, b, c, d])
  {
    var ps := QuadPieces(a, b, c, d);
    forall i | 0 <= i < 4 ensures '.' !in ps[i] {
      assert AllDigits(ps[i]);
    }
    SplitJoin(ps, '.');
    DecimalValue(a);
    DecimalValue(b);
    DecimalValue(c);
    DecimalValue(d);
  }

  /** A well-formed dotted quad is classified private exactly when its address lies
      in one of the five private IPv4 blocks. */
  lemma DottedQuadPrivate(a: nat, b: nat, c: nat, d: nat)
    requires a < 256 && b < 256 && c < 256 && d < 256
    ensures IsPrivateIPv4(DottedQuad(a, b, c, d)) <==> InPrivateBlock(Address(a, b, c, d))
    ensures IsPrivateIP(DottedQuad(a, b, c, d)) <==> InPrivateBlock(Address(a, b, c, d))
  {
    DottedQuadSplits(a, b, c, d);
    PrivateLeadingIsBlocks(a, b, c, d);
    QuadShape(a, b, c, d);
    DigitLedIsIPv4(DottedQuad(a, b, c, d));
  }

  /** Lower-case text that starts with a digit and holds a dot passes none of the IPv6
      tests, so it is classified as IPv4. */
  lemma DigitLedIsIPv4(q: string)
    requires q != [] && IsDigit(q[0]) && '.' in q && Lower(q) == q
    ensures IsPrivateIP(q) == IsPrivateIPv4(q)
  {
    assert q != "::1" by { assert q[0] != ':'; }
    DigitNotPrefix(q, "fe80:");
    DigitNotPrefix(q, "fc");
    DigitNotPrefix(q, "fd");
    DigitNotPrefix(q, MappedPrefix);
  }

  /** Text that starts with a digit does not start with a prefix that does not. */
  lemma DigitNotPrefix(q: string, p: string)
    requires q != [] && IsDigit(q[0]) && p != [] && !IsDigit(p[0])
    ensures !StartsWith(q, p)
  {
    if |p| <= |q| {
      assert q[..|p|][0] == q[0];
    }
  }

  /** The IPv4-mapped IPv6 form of a dotted quad is classified like the quad itself. */
  lemma MappedDottedQuad(a: nat, b: nat, c: nat, d: nat)
    requires a < 256 && b < 256 && c < 256 && d < 256
    ensures IsPrivateIP(MappedPrefix + DottedQuad(a, b, c, d)) <==> InPrivateBlock(Address(a, b, c, d))
  {
    var q := DottedQuad(a, b, c, d);
    DottedQuadSplits(a, b, c, d);
    QuadShape(a, b, c, d);
    NoColonNoPrefix(q);
    LowerMapped(q);
    MappedUsesEmbedded(MappedPrefix + q, q);
    PrivateLeadingIsBlocks(a, b, c, d);
  }

  lemma NoColonNoPrefix(q: string)
    requires forall j :: 0 <= j < |q| ==> q[j] != ':'
    ensures forall j :: !OccursAt(q, MappedPrefix, j)
  {
    forall j ensures !OccursAt(q, MappedPrefix, j) {
      if 0 <= j && j + 7 <= |q| {
        assert q[j..j + 7][0] == q[j];
      }
    }
  }

  lemma LowerMapped(q: string)
    requires Lower(q) == q
    ensures Lower(MappedPrefix + q) == MappedPrefix + q
  {
    var ip := MappedPrefix + q;
    forall j | 0 <= j < |ip| ensures LowerChar(ip[j]) == ip[j] {
      if j >= 7 {
        assert ip[j] == q[j - 7];
      }
    }
    LowerOfLower(ip);
  }
}

=== FILE: storage.dfy ===
/** The wishlist client's persistence logic with the key-value store replaced by a
    state value: dedup-then-prepend on save, and the version 1 to version 2 migration.
    Id generation and the clock are parameters. */
module Storage {
  import opened Wrappers
  import opened Text
  import UrlUtils

  /** A stored wishlist entry (schema version 2). */
  datatype WishlistItem = WishlistItem(
    id: string, title: string, image: Option<string>, price: Option<string>,
    currency: Option<string>, siteName: Option<string>, sourceUrl: Option<string>,
    normalizedUrl: Option<string>, createdAt: string)

  /** A schema version 1 entry: no normalizedUrl. An empty `createdAt` stands for a
      missing or empty one. */
  datatype ItemV1 = ItemV1(
    id: string, title: string, image: Option<string>, price: Option<string>,
    currency: Option<string>, siteName: Option<string>, sourceUrl: Option<string>,
    createdAt: string)

  /** What reading the database key yields: nothing (no value, or text that is not
      JSON), a version 1 or version 2 database, or a value of any other shape. */
  datatype Stored = Absent | V1(v1Items: seq<ItemV1>) | V2(items: seq<WishlistItem>) | Other

  /** The argument of `saveItem`: an item without `createdAt`, with an optional id. */
  datatype NewItem = NewItem(
    id: Option<string>, title: string, image: Option<string>, price: Option<string>,
    currency: Option<string>, siteName: Option<string>, sourceUrl: Option<string>,
    normalizedUrl: Option<string>)

  /** The dedup key of a source URL: its normalised form when it is truthy. */
  function KeyOf(sourceUrl: Option<string>): (k: Option<string>)
    ensures k.Some? <==> Truthy(sourceUrl)
    ensures k.Some? ==> k.value == UrlUtils.NormalizeUrl(sourceUrl.value)
    ensures k.Some? ==> UrlUtils.NormalizeUrl(k.value) == k.value
  {
    if Truthy(sourceUrl) then
      UrlUtils.NormalizeUrlIdempotent(sourceUrl.value);
      Some(UrlUtils.NormalizeUrl(sourceUrl.value))
    else None
  }

  // ---------------------------------------------------------------------
  // saveItem

  /** The list `saveItem` reads: the stored items, with version 1 items seen without a
      normalizedUrl; nothing for any other state. */
  function ListOf(db: Stored): (r: seq<WishlistItem>)
    ensures db.V2? ==> r == db.items
    ensures db.Absent? || db.Other? ==> r == []
    ensures db.V1? ==> |r| == |db.v1Items|
    ensures db.V1? ==> forall i :: 0 <= i < |r| ==>
              var (it, w) := (db.v1Items[i], r[i]);
              && w.normalizedUrl.None?
              && w == WishlistItem(it.id, it.title, it.image, it.price, it.currency, it.siteName,
                                   it.sourceUrl, None, it.createdAt)
  {
    match db
    case V2(items) => items
    case V1(v1) => seq(|v1|, i requires 0 <= i < |v1| =>
                     var it := v1[i];
                     WishlistItem(it.id, it.title, it.image, it.price, it.currency, it.siteName,
                                  it.sourceUrl, None, it.createdAt))
    case _ => []
  }

  /** The normalizedUrl `saveItem` stores: the caller's when given, else the key of the
      source URL. */
  function SaveKey(item: NewItem): (k: Option<string>)
    ensures item.normalizedUrl.Some? ==> k == item.normalizedUrl
    ensures item.normalizedUrl.None? ==> (k.Some? <==> Truthy(item.sourceUrl))
    ensures item.normalizedUrl.None? && k.Some? ==>
              k.value == UrlUtils.NormalizeUrl(item.sourceUrl.value)
  {
    if item.normalizedUrl.Some? then item.normalizedUrl else KeyOf(item.sourceUrl)
  }

  /** `list.find(x => x.normalizedUrl === key)`: the first item with this key. */
  function FindByKey(list: seq<WishlistItem>, key: string): (r: Option<nat>)
    ensures r.Some? ==> r.value < |list| && list[r.value].normalizedUrl == Some(key)
    ensures r.Some? ==> forall j :: 0 <= j < r.value ==> list[j].normalizedUrl != Some(key)
    ensures r.None? ==> forall j :: 0 <= j < |list| ==> list[j].normalizedUrl != Some(key)
  {
    if list == [] then None
    else if list[0].normalizedUrl == Some(key) then Some(0)
    else
      match FindByKey(list[1..], key)
      case None => None
      case Some(k) => Some(k + 1)
  }

  /** The result of `saveItem`: the saved item (None when rejected as a duplicate) and
      the state afterwards. */
  datatype SaveOutcome = SaveOutcome(saved: Option<WishlistItem>, db: Stored)

  /** `saveItem`: reject when a truthy key is already stored, else prepend the new item
      (absent fields stored as null) and write a version 2 database. */
  function SaveItem(db: Stored, item: NewItem, freshId: string, now: string): (r: SaveOutcome)
    ensures var key := SaveKey(item);
            r.saved.None? <==>
              Truthy(key) && exists j :: 0 <= j < |ListOf(db)| && ListOf(db)[j].normalizedUrl == key
    ensures r.saved.None? ==> r.db == db
    ensures r.saved.Some? ==> r.db == V2([r.saved.value] + ListOf(db))
    ensures r.saved.Some? ==>
              var s := r.saved.value;
              && s.id == item.id.GetOr(freshId) && s.createdAt == now
              && s.title == item.title && s.image == item.image && s.price == item.price
              && s.currency == item.currency && s.siteName == item.siteName
              && s.sourceUrl == item.sourceUrl && s.normalizedUrl == SaveKey(item)
  {
    var list := ListOf(db);
    var id := item.id.GetOr(freshId);
    var key := SaveKey(item);
    if Truthy(key) && FindByKey(list, key.value).Some? then SaveOutcome(None, db)
    else
      var toSave := WishlistItem(id, item.title, item.image, item.price, item.currency,
                                 item.siteName, item.sourceUrl, key, now);
      SaveOutcome(Some(toSave), V2([toSave] + list))
  }

  /** No two items share a truthy normalizedUrl. */
  predicate DistinctKeys(list: seq<WishlistItem>) {
    forall i, j :: 0 <= i < j < |list| && Truthy(list[i].normalizedUrl)
                   ==> list[i].normalizedUrl != list[j].normalizedUrl
  }

  /** Saving keeps the stored keys distinct. */
  lemma SavePreservesDistinct(db: Stored, item: NewItem, freshId: string, now: string)
    requires DistinctKeys(ListOf(db))
    ensures DistinctKeys(ListOf(SaveItem(db, item, freshId, now).db))
  {
    var r := SaveItem(db, item, freshId, now);
    if r.saved.Some? {
      var list := ListOf(db);
      var l2 := [r.saved.value] + list;
      assert ListOf(r.db) == l2;
      forall i, j | 0 <= i < j < |l2| && Truthy(l2[i].normalizedUrl)
        ensures l2[i].normalizedUrl != l2[j].normalizedUrl
      {
        if i == 0 {
          assert l2[j] == list[j - 1];
        } else {
          assert l2[i] == list[i - 1] && l2[j] == list[j - 1];
        }
      }
    }
  }

  /** Items without a dedup key are never rejected, and the list grows by one with the
      old items behind the new one in their old order. */
  lemma SaveWithoutKey(db: Stored, item: NewItem, freshId: string, now: string)
    requires SaveKey(item).None?
    ensures SaveItem(db, item, freshId, now).saved.Some?
    ensures var l := ListOf(SaveItem(db, item, freshId, now).db);
            |l| == |ListOf(db)| + 1 && l[1..] == ListOf(db)
  {
  }

  /** Once an item with a truthy key is saved, any later item with the same key is
      rejected and leaves the state unchanged. */
  lemma SaveTwiceRejected(db: Stored, item: NewItem, again: NewItem, id1: string, id2: string,
                          t1: string, t2: string)
    requires Truthy(SaveKey(item))
    requires SaveKey(again) == SaveKey(item)
    ensures var first := SaveItem(db, item, id1, t1);
            var second := SaveItem(first.db, again, id2, t2);
            second.saved.None? && second.db == first.db
  {
    var first := SaveItem(db, item, id1, t1);
    if first.saved.Some? {
      assert ListOf(first.db)[0].normalizedUrl == SaveKey(again);
    }
  }

  // ---------------------------------------------------------------------
  // initAndMigrate

  /** One version 1 item in version 2 form: it gains the key of its source URL and keeps
      a non-empty `createdAt` (else takes `now`). */
  function MigrateItem(it: ItemV1, now: string): (w: WishlistItem)
    ensures w.normalizedUrl == KeyOf(it.sourceUrl)
    ensures it.createdAt != [] ==> w.createdAt == it.createdAt
    ensures it.createdAt == [] ==> w.createdAt == now
    ensures && w.id == it.id && w.title == it.title && w.image == it.image
            && w.price == it.price && w.currency == it.currency
            && w.siteName == it.siteName && w.sourceUrl == it.sourceUrl
  {
    WishlistItem(it.id, it.title, it.image, it.price, it.currency, it.siteName, it.sourceUrl,
                 KeyOf(it.sourceUrl), if it.createdAt != [] then it.createdAt else now)
  }

  /** `initAndMigrate`: the state after start-up. */
  function InitAndMigrate(db: Stored, now: string): (r: Stored)
    ensures r.V2?
    ensures db.V2? ==> r == db
    ensures db.Absent? || db.Other? ==> r == V2([])
    ensures db.V1? ==> |r.items| == |db.v1Items|
    ensures db.V1? ==> forall i :: 0 <= i < |db.v1Items| ==>
              var (old1, new2) := (db.v1Items[i], r.items[i]);
              && new2.id == old1.id && new2.title == old1.title && new2.image == old1.image
              && new2.price == old1.price && new2.currency == old1.currency
              && new2.siteName == old1.siteName && new2.sourceUrl == old1.sourceUrl
              && new2.normalizedUrl == KeyOf(old1.sourceUrl)
              && (new2.normalizedUrl.Some? <==> Truthy(old1.sourceUrl))
              && (old1.createdAt != [] ==> new2.createdAt == old1.createdAt)
              && (old1.createdAt == [] ==> new2.createdAt == now)
  {
    match db
    case Absent => V2([])
    case V2(_) => db
    case V1(v1) => V2(seq(|v1|, i requires 0 <= i < |v1| => MigrateItem(v1[i], now)))
    case Other => V2([])
  }

  /** Every key the migration writes is already a normalised URL, so a later save of
      the same page, whose key is normalised too, finds it. */
  lemma MigratedKeysNormalized(db: Stored, now: string)
    requires db.V1?
    ensures var items := InitAndMigrate(db, now).items;
            forall i :: 0 <= i < |items| && items[i].normalizedUrl.Some? ==>
              UrlUtils.NormalizeUrl(items[i].normalizedUrl.value) == items[i].normalizedUrl.value
  {
  }

  /** After migrating, an item for a page already on the list (same source URL) is
      rejected. */
  lemma MigratedThenSaveRejected(db: Stored, now: string, i: nat, item: NewItem,
                                 freshId: string, t: string)
    requires db.V1? && i < |db.v1Items| && Truthy(db.v1Items[i].sourceUrl)
    requires item.normalizedUrl.None? && item.sourceUrl == db.v1Items[i].sourceUrl
    ensures SaveItem(InitAndMigrate(db, now), item, freshId, t).saved.None?
  {
    var items := InitAndMigrate(db, now).items;
    assert items[i].normalizedUrl == SaveKey(item);
  }
}

=== FILE: text.dfy ===
/** String helpers with the semantics of the JavaScript built-ins the source calls:
    `toLowerCase` (ASCII part), `trim`, `split`, `startsWith`, `includes`, `indexOf`. */
module Text {
  import opened Wrappers

  /** `s` begins with `p` (String.prototype.startsWith). */
  predicate StartsWith(s: string, p: string) {
    |p| <= |s| && s[..|p|] == p
  }

  /** JavaScript truthiness of a string that may be null or undefined: present and
      non-empty. */
  predicate Truthy(s: Option<string>) {
    s.Some? && s.value != []
  }

  /** `sub` occurs in `s` starting at index `j`. */
  predicate OccursAt(s: string, sub: string, j: int) {
    0 <= j && j + |sub| <= |s| && s[j..j + |sub|] == sub
  }

  /** An ASCII decimal digit (what `\d` matches). */
  predicate IsDigit(c: char) {
    '0' <= c <= '9'
  }

  // ---------------------------------------------------------------------
  // Case

  function LowerChar(c: char): char {
    if 'A' <= c <= 'Z' then (c as int + 32) as char else c
  }

  /** ASCII lower-casing, character by character. */
  function Lower(s: string): (r: string)
    ensures |r| == |s|
    ensures forall i :: 0 <= i < |s| ==> r[i] == LowerChar(s[i])
  {
    if s == [] then [] else [LowerChar(s[0])] + Lower(s[1..])
  }

  predicate IsLower(s: string) {
    forall i :: 0 <= i < |s| ==> LowerChar(s[i]) == s[i]
  }

  /** Lower-casing produces lower-case text, so applying it twice changes nothing. */
  lemma LowerIsLower(s: string)
    ensures IsLower(Lower(s))
    ensures Lower(Lower(s)) == Lower(s)
  {
    var r := Lower(s);
    assert forall i :: 0 <= i < |r| ==> LowerChar(r[i]) == r[i];
  }

  /** Lower-case text is its own lower-case form. */
  lemma LowerOfLower(s: string)
    requires IsLower(s)
    ensures Lower(s) == s
  {
  }

  // ---------------------------------------------------------------------
  // Whitespace

  /** The characters of ECMAScript's WhiteSpace and LineTerminator productions:
      what `\s` matches and what `trim` removes. */
  predicate IsJsSpace(c: char) {
    c == '\t' || c == '\n' || c == '\U{000B}' || c == '\U{000C}' || c == '\r' || c == ' '
    || c == '\U{00A0}' || c == '\U{1680}' || ('\U{2000}' <= c <= '\U{200A}')
    || c == '\U{2028}' || c == '\U{2029}' || c == '\U{202F}' || c == '\U{205F}'
    || c == '\U{3000}' || c == '\U{FEFF}'
  }

  function TrimStart(s: string): (r: string)
    ensures |r| <= |s| && r == s[|s| - |r|..]
    ensures r == [] || !IsJsSpace(r[0])
    ensures forall i :: 0 <= i < |s| - |r| ==> IsJsSpace(s[i])
  {
    if s != [] && IsJsSpace(s[0]) then TrimStart(s[1..]) else s
  }

  function TrimEnd(s: string): (r: string)
    ensures |r| <= |s| && r == s[..|r|]
    ensures r == [] || !IsJsSpace(r[|r| - 1])
    ensures forall i :: |r| <= i < |s| ==> IsJsSpace(s[i])
  {
    if s != [] && IsJsSpace(s[|s| - 1]) then TrimEnd(s[..|s| - 1]) else s
  }

  /** How many whitespace characters `s` begins with. */
  function LeadingSpaces(s: string): (n: nat)
    ensures n <= |s|
    ensures forall i :: 0 <= i < n ==> IsJsSpace(s[i])
    ensures n == |s| || !IsJsSpace(s[n])
  {
    if s != [] && IsJsSpace(s[0]) then 1 + LeadingSpaces(s[1..]) else 0
  }

  /** String.prototype.trim: the result is a slice of `s` that neither begins nor
      ends with whitespace, and only whitespace was cut off either side. */
  function Trim(s: string): (r: string)
    ensures LeadingSpaces(s) + |r| <= |s|
    ensures r == s[LeadingSpaces(s)..LeadingSpaces(s) + |r|]
    ensures forall i :: LeadingSpaces(s) + |r| <= i < |s| ==> IsJsSpace(s[i])
    ensures r == [] || (!IsJsSpace(r[0]) && !IsJsSpace(r[|r| - 1]))
  {
    var t := TrimStart(s);
    assert |s| - |t| == LeadingSpaces(s);
    TrimEnd(t)
  }

  // ---------------------------------------------------------------------
  // Splitting on one character

  /** The text before the first `c` and, when `c` occurs, the text after it. */
  function SplitFirst(s: string, c: char): (r: (string, Option<string>))
    ensures c !in r.0
    ensures r.1.None? <==> c !in s
    ensures r.1.None? ==> r.0 == s
    ensures r.1.Some? ==> s == r.0 + [c] + r.1.value
  {
    if s == [] then ([], None)
    else if s[0] == c then ([], Some(s[1..]))
    else
      var (b, a) := SplitFirst(s[1..], c);
      assert a.Some? ==> s == [s[0]] + s[1..] && s[1..] == b + [c] + a.value;
      ([s[0]] + b, a)
  }

  /** Splitting at the first `c` of `b + [c] + a` recovers `b` and `a` when `b` has no `c`. */
  lemma {:induction false} SplitFirstJoin(b: string, c: char, a: string)
    requires c !in b
    ensures SplitFirst(b + [c] + a, c) == (b, Some(a))
  {
    var s := b + [c] + a;
    if b == [] {
      assert s[0] == c && s[1..] == a;
    } else {
      assert s[0] == b[0] != c;
      assert s[1..] == b[1..] + [c] + a;
      SplitFirstJoin(b[1..], c, a);
      assert b == [s[0]] + b[1..];
    }
  }

  /** String.prototype.split with a one-character separator. */
  function Split(s: string, c: char): (ps: seq<string>)
    ensures |ps| >= 1
    ensures forall i :: 0 <= i < |ps| ==> c !in ps[i]
    ensures Join(ps, c) == s
    decreases |s|
  {
    match SplitFirst(s, c)
    case (b, None) => [b]
    case (b, Some(a)) => [b] + Split(a, c)
  }

  /** Array.prototype.join: the pieces with `c` between neighbours. */
  function Join(ps: seq<string>, c: char): string {
    if |ps| == 0 then []
    else if |ps| == 1 then ps[0]
    else ps[0] + [c] + Join(ps[1..], c)
  }

  /** Joining pieces that do not contain the separator and splitting again gives them back. */
  lemma {:induction false} SplitJoin(ps: seq<string>, c: char)
    requires |ps| >= 1
    requires forall i :: 0 <= i < |ps| ==> c !in ps[i]
    ensures Split(Join(ps, c), c) == ps
  {
    if |ps| == 1 {
    } else {
      SplitFirstJoin(ps[0], c, Join(ps[1..], c));
      SplitJoin(ps[1..], c);
    }
  }

  // ---------------------------------------------------------------------
  // Substrings

  /** The part of `s` before the first occurrence of `sub` (all of `s` when there is none):
      element 0 of `s.split(sub)`. */
  function BeforeSub(s: string, sub: string): (r: string)
    requires |sub| > 0
    ensures |r| <= |s| && r == s[..|r|]
    ensures forall j :: 0 <= j < |r| ==> !OccursAt(s, sub, j)
    ensures |r| == |s| || OccursAt(s, sub, |r|)
  {
    if |s| < |sub| then s
    else if s[..|sub|] == sub then []
    else
      var r := BeforeSub(s[1..], sub);
      var res := [s[0]] + r;
      assert res == s[..|res|] by {
        forall i | 0 < i < |res| ensures res[i] == s[i] {
          assert res[i] == r[i - 1] == s[1..][i - 1];
        }
      }
      assert !OccursAt(s, sub, 0);
      forall j | 1 <= j < |res| ensures !OccursAt(s, sub, j) {
        OccursShift(s, sub, j);
      }
      assert |res| == |s| || OccursAt(s, sub, |res|) by {
        if |r| < |s[1..]| {
          OccursShift(s, sub, |res|);
        }
      }
      res
  }

  /** An occurrence at `j >= 1` is an occurrence at `j - 1` in the tail. */
  lemma OccursShift(s: string, sub: string, j: int)
    requires 1 <= j && s != []
    ensures OccursAt(s, sub, j) <==> OccursAt(s[1..], sub, j - 1)
  {
    if j + |sub| <= |s| {
      var t := s[1..];
      var a, b := s[j..j + |sub|], t[j - 1..j - 1 + |sub|];
      forall i | 0 <= i < |sub| ensures a[i] == b[i] {
        assert a[i] == s[j + i] == t[j - 1 + i] == b[i];
      }
      assert a == b;
    }
  }

  /** String.prototype.includes, for a non-empty needle. */
  function Contains(s: string, sub: string): (b: bool)
    requires |sub| > 0
    ensures b <==> exists j :: OccursAt(s, sub, j)
  {
    |BeforeSub(s, sub)| < |s|
  }
}

=== FILE: url_utils.dfy ===
/** The wishlist client's URL helpers: tracking-parameter removal (the dedup key),
    display domain and display path. */
module UrlUtils {
  import opened Wrappers
  import opened Text
  import opened Urls

  /** The query keys `normalizeUrl` deletes, in the order it deletes them. */
  const TrackingParams: seq<string> :=
    ["utm_source", "utm_medium", "utm_campaign", "utm_term", "utm_content"]

  predicate IsTracking(name: string) {
    name in TrackingParams
  }

  /** `url.searchParams`: the pair list of the URL's query (empty when it has none). */
  function SearchParams(u: Url): seq<Param> {
    ParseQuery(u.query.GetOr(""))
  }

  // ---------------------------------------------------------------------
  // URLSearchParams.has / delete

  /** URLSearchParams.has. */
  function Has(ps: seq<Param>, name: string): (b: bool)
    ensures b <==> exists i :: 0 <= i < |ps| && ps[i].name == name
  {
    if ps == [] then false
    else if ps[0].name == name then true
    else
      var b := Has(ps[1..], name);
      assert b ==> exists i :: 0 <= i < |ps| && ps[i].name == name by {
        if b {
          var i :| 0 <= i < |ps[1..]| && ps[1..][i].name == name;
          assert ps[i + 1].name == name;
        }
      }
      b
  }

  /** URLSearchParams.delete: removes every pair with this name, keeping the others in order. */
  function Delete(ps: seq<Param>, name: string): (r: seq<Param>)
    ensures forall p :: p in r <==> p in ps && p.name != name
    ensures r == FilterNames(ps, [name])
  {
    if ps == [] then []
    else if ps[0].name == name then Delete(ps[1..], name)
    else [ps[0]] + Delete(ps[1..], name)
  }

  /** The `forEach` of normalizeUrl: for each key in turn, delete it when present.
      Returns the remaining pairs and whether any delete happened (a delete is what
      makes the URL re-serialise its query). The fold is one ordered filter by name. */
  function DeleteKeys(ps: seq<Param>, keys: seq<string>): (r: (seq<Param>, bool))
    ensures r.0 == FilterNames(ps, keys)
    ensures r.1 <==> exists i :: 0 <= i < |ps| && ps[i].name in keys
    decreases |keys|
  {
    if keys == [] then
      FilterNone(ps);
      (ps, false)
    else if Has(ps, keys[0]) then
      var (rest, _) := DeleteKeys(Delete(ps, keys[0]), keys[1..]);
      FilterDelete(ps, keys);
      assert forall i :: 0 <= i < |ps| && ps[i].name == keys[0] ==> ps[i].name in keys;
      (rest, true)
    else
      var r := DeleteKeys(ps, keys[1..]);
      FilterAbsent(ps, keys);
      assert keys == [keys[0]] + keys[1..];
      assert forall i :: 0 <= i < |ps| ==> ps[i].name != keys[0];
      r
  }

  // ---------------------------------------------------------------------
  // Reference definition: drop the tracking pairs in one pass

  /** The pairs whose name is not a tracking key, in their original order. */
  function Untracked(ps: seq<Param>): (r: seq<Param>)
    ensures forall p :: p in r <==> p in ps && !IsTracking(p.name)
    ensures |r| <= |ps|
  {
    if ps == [] then []
    else if IsTracking(ps[0].name) then Untracked(ps[1..])
    else [ps[0]] + Untracked(ps[1..])
  }

  predicate HasTracking(ps: seq<Param>) {
    exists i :: 0 <= i < |ps| && IsTracking(ps[i].name)
  }

  /** Dropping pairs commutes with concatenation, so relative order is kept. */
  lemma {:induction false} UntrackedAppend(a: seq<Param>, b: seq<Param>)
    ensures Untracked(a + b) == Untracked(a) + Untracked(b)
  {
    if a == [] {
      assert a + b == b;
    } else {
      assert (a + b)[0] == a[0];
      assert (a + b)[1..] == a[1..] + b;
      UntrackedAppend(a[1..], b);
    }
  }

  /** A list with no tracking pair passes through unchanged. */
  lemma {:induction false} UntrackedNoop(ps: seq<Param>)
    requires !HasTracking(ps)
    ensures Untracked(ps) == ps
  {
    if ps != [] {
      assert !IsTracking(ps[0].name);
      UntrackedNoop(ps[1..]);
    }
  }

  /** Deleting the keys one after another, as the source does, removes exactly the
      tracking pairs, and reports a change exactly when there was one to remove. */
  lemma DeleteTrackingKeys(ps: seq<Param>)
    ensures DeleteKeys(ps, TrackingParams) == (Untracked(ps), HasTracking(ps))
  {
    UntrackedIsFilter(ps);
  }

  /** What the fold keeps, for any key list: exactly the pairs whose name is not
      among the keys. */
  lemma DeleteKeysFilter(ps: seq<Param>, keys: seq<string>)
    ensures forall p :: p in DeleteKeys(ps, keys).0 <==> p in ps && p.name !in keys
  {
    FilterNamesKeeps(ps, keys);
  }

  lemma {:induction false} FilterNamesKeeps(ps: seq<Param>, keys: seq<string>)
    ensures forall p :: p in FilterNames(ps, keys) <==> p in ps && p.name !in keys
  {
    if ps != [] {
      FilterNamesKeeps(ps[1..], keys);
      assert ps == [ps[0]] + ps[1..];
    }
  }

  /** The pairs whose name is not among `keys`, in order. */
  function FilterNames(ps: seq<Param>, keys: seq<string>): seq<Param> {
    if ps == [] then []
    else if ps[0].name in keys then FilterNames(ps[1..], keys)
    else [ps[0]] + FilterNames(ps[1..], keys)
  }

  lemma {:induction false} FilterNone(ps: seq<Param>)
    ensures FilterNames(ps, []) == ps
  {
    if ps != [] {
      FilterNone(ps[1..]);
    }
  }

  lemma {:induction false} FilterDelete(ps: seq<Param>, keys: seq<string>)
    requires keys != []
    ensures FilterNames(Delete(ps, keys[0]), keys[1..]) == FilterNames(ps, keys)
  {
    assert keys == [keys[0]] + keys[1..];
    if ps != [] {
      FilterDelete(ps[1..], keys);
    }
  }

  lemma {:induction false} FilterAbsent(ps: seq<Param>, keys: seq<string>)
    requires keys != []
    requires !Has(ps, keys[0])
    ensures FilterNames(ps, keys[1..]) == FilterNames(ps, keys)
  {
    assert keys == [keys[0]] + keys[1..];
    if ps != [] {
      assert ps[0].name != keys[0];
      FilterAbsent(ps[1..], keys);
    }
  }

  lemma {:induction false} UntrackedIsFilter(ps: seq<Param>)
    ensures Untracked(ps) == FilterNames(ps, TrackingParams)
  {
    if ps != [] {
      UntrackedIsFilter(ps[1..]);
    }
  }

  // ---------------------------------------------------------------------
  // normalizeUrl

  /** The URL after the tracking keys are deleted from its search parameters. When a
      delete happened, the query is re-serialised from the remaining pairs (and dropped
      when none remain); otherwise the URL is untouched. */
  function StripTracking(u: Url): (r: Url)
    ensures r == u.(query := r.query)
    ensures !HasTracking(SearchParams(u)) ==> r == u
    ensures HasTracking(SearchParams(u)) ==> (r.query.None? <==> Untracked(SearchParams(u)) == [])
  {
    DeleteTrackingKeys(SearchParams(u));
    var (kept, changed) := DeleteKeys(SearchParams(u), TrackingParams);
    if !changed then u
    else
      var q := SerializeQuery(kept);
      u.(query := if q == [] then None else Some(q))
  }

  /** `normalizeUrl`: the href without tracking parameters, or the input itself when
      it does not parse. */
  function NormalizeUrl(raw: string): (r: string)
    ensures Parse(raw).None? ==> r == raw
  {
    match Parse(raw)
    case None => raw
    case Some(u) => Serialize(StripTracking(u))
  }

  /** A stripped URL is still well formed, keeps everything but its query, and its
      search parameters are exactly the untracked pairs of the original. */
  lemma StripTrackingWellFormed(u: Url)
    requires WellFormed(u)
    ensures WellFormed(StripTracking(u))
    ensures StripTracking(u) == u.(query := StripTracking(u).query)
    ensures SearchParams(StripTracking(u)) == Untracked(SearchParams(u))
  {
    var ps := SearchParams(u);
    ParseQueryOk(u.query.GetOr(""));
    DeleteTrackingKeys(ps);
    if !HasTracking(ps) {
      UntrackedNoop(ps);
    } else {
      var kept := Untracked(ps);
      assert forall i :: 0 <= i < |kept| ==> ParamOk(kept[i]) by {
        forall i | 0 <= i < |kept| ensures ParamOk(kept[i]) {
          assert kept[i] in kept;
        }
      }
      SerializeQueryNoHash(kept);
      ParseSerializeQuery(kept);
      if SerializeQuery(kept) == [] {
        assert ParseQuery("") == [];
      }
    }
  }

  /** Nothing tracked survives the one-pass filter. */
  lemma UntrackedClean(ps: seq<Param>)
    ensures !HasTracking(Untracked(ps))
  {
    var r := Untracked(ps);
    forall i | 0 <= i < |r| ensures !IsTracking(r[i].name) {
      assert r[i] in r;
    }
  }

  /** After normalisation no tracking key is left, every other pair is kept in its
      original order, and scheme, host, path and fragment are unchanged. */
  lemma NormalizeUrlParams(raw: string, u: Url)
    requires Parse(raw) == Some(u)
    ensures Parse(NormalizeUrl(raw)).Some?
    ensures Parse(NormalizeUrl(raw)).value == u.(query := Parse(NormalizeUrl(raw)).value.query)
    ensures SearchParams(Parse(NormalizeUrl(raw)).value) == Untracked(SearchParams(u))
    ensures !HasTracking(SearchParams(Parse(NormalizeUrl(raw)).value))
    ensures !HasTracking(SearchParams(u)) ==> Parse(NormalizeUrl(raw)) == Some(u)
    ensures HasTracking(SearchParams(u)) ==>
              (Parse(NormalizeUrl(raw)).value.query.None? <==> Untracked(SearchParams(u)) == [])
  {
    ParseWellFormed(raw);
    StripTrackingWellFormed(u);
    var v := StripTracking(u);
    assert NormalizeUrl(raw) == Serialize(v);
    ParseSerialize(v);
    UntrackedClean(SearchParams(u));
  }

  /** A URL whose query holds only tracking keys normalises to the same URL with no
      query at all: "http://x/?utm_source=a" becomes "http://x/", not "http://x/?". */
  lemma OnlyTrackingDropsQuery(u: Url)
    requires WellFormed(u)
    requires SearchParams(u) != []
    requires forall i :: 0 <= i < |SearchParams(u)| ==> IsTracking(SearchParams(u)[i].name)
    ensures NormalizeUrl(Serialize(u)) == Serialize(u.(query := None))
  {
    var ps := SearchParams(u);
    assert IsTracking(ps[0].name);
    assert HasTracking(ps);
    UntrackedAllTracking(ps);
    var r := StripTracking(u);
    assert r.query.None?;
    assert r == u.(query := None);
    ParseSerialize(u);
    assert NormalizeUrl(Serialize(u)) == Serialize(r);
  }

  /** Nothing survives when every pair is a tracking pair. */
  lemma UntrackedAllTracking(ps: seq<Param>)
    requires forall i :: 0 <= i < |ps| ==> IsTracking(ps[i].name)
    ensures Untracked(ps) == []
  {
    if Untracked(ps) != [] {
      assert Untracked(ps)[0] in Untracked(ps);
    }
  }

  /** Normalising twice is the same as normalising once. */
  lemma NormalizeUrlIdempotent(raw: string)
    ensures NormalizeUrl(NormalizeUrl(raw)) == NormalizeUrl(raw)
  {
    if Parse(raw).Some? {
      var u := Parse(raw).value;
      ParseWellFormed(raw);
      StripTrackingWellFormed(u);
      var v := StripTracking(u);
      ParseSerialize(v);
      UntrackedClean(SearchParams(u));
      DeleteTrackingKeys(SearchParams(v));
      assert StripTracking(v) == v;
    }
  }

  // ---------------------------------------------------------------------
  // getDomain / getPath

  /** `getDomain`: the hostname without one leading "www.", or the raw input when it
      does not parse. */
  function GetDomain(raw: string): (r: string)
    ensures Parse(raw).None? ==> r == raw
    ensures Parse(raw).Some? ==>
              var h := Hostname(Parse(raw).value);
              (h == r || h == "www." + r) && (h != r <==> StartsWith(h, "www."))
  {
    match Parse(raw)
    case None => raw
    case Some(u) =>
      var h := Hostname(u);
      if StartsWith(h, "www.") then
        assert h == "www." + h[4..];
        h[4..]
      else h
  }

  /** `getPath`: the pathname, "/" when it is empty or the input does not parse. */
  function GetPath(raw: string): (r: string)
    ensures r != []
    ensures Parse(raw).None? ==> r == "/"
    ensures Parse(raw).Some? && Parse(raw).value.path != [] ==> r == Parse(raw).value.path
    ensures Parse(raw).Some? && Parse(raw).value.path == [] ==> r == "/"
  {
    match Parse(raw)
    case None => "/"
    case Some(u) => if u.path == [] then "/" else u.path
  }

  /** The path shown for a well-formed URL's href is its own path (or "/"), and URLs of
      the special schemes always show their path. */
  lemma GetPathOfHref(u: Url)
    requires WellFormed(u)
    ensures GetPath(Serialize(u)) == if u.path == [] then "/" else u.path
    ensures IsSpecial(u.scheme) ==> GetPath(Serialize(u)) == u.path
  {
    ParseSerialize(u);
  }

  /** The domain shown for a well-formed URL's href is its hostname without "www.". */
  lemma GetDomainOfHref(u: Url, rest: string)
    requires WellFormed(u)
    requires Hostname(u) == "www." + rest
    ensures GetDomain(Serialize(u)) == rest
  {
    ParseSerialize(u);
  }
}

=== FILE: urls.dfy ===
/** A simplified model of WHATWG URL parsing and serialisation (URL Standard, section 4
    "URLs" and section 5 "application/x-www-form-urlencoded"), enough for what the
    wishlist client and the preview server ask of `new URL(...)`:
    `URL := scheme ":" ["//" authority] path ["?" query] ["#" fragment]`.
    Percent-encoding, dot-segment removal, IDNA, ports and credentials are not modelled. */
module Urls {
  import opened Wrappers
  import opened Text

  /** A parsed URL. `host` is the authority text when the URL was written with "//";
      `query` and `fragment` exclude their leading '?' and '#'. */
  datatype Url = Url(scheme: string, host: Option<string>, path: string,
                     query: Option<string>, fragment: Option<string>)

  /** One name/value pair of a query string, in URLSearchParams order. */
  datatype Param = Param(name: string, value: string)

  // ---------------------------------------------------------------------
  // Schemes

  predicate IsAsciiLetter(c: char) {
    ('a' <= c <= 'z') || ('A' <= c <= 'Z')
  }

  predicate IsSchemeChar(c: char) {
    IsAsciiLetter(c) || ('0' <= c <= '9') || c == '+' || c == '-' || c == '.'
  }

  /** An ASCII letter followed by letters, digits, '+', '-' or '.'. */
  predicate ValidScheme(s: string) {
    |s| > 0 && IsAsciiLetter(s[0]) && forall i :: 0 <= i < |s| ==> IsSchemeChar(s[i])
  }

  /** Special schemes require a non-empty host and always have a path ("file" is
      handled like the other schemes in this model). */
  predicate IsSpecial(scheme: string) {
    scheme in {"ftp", "http", "https", "ws", "wss"}
  }

  // ---------------------------------------------------------------------
  // Well-formedness: the shape of every URL the parser produces

  predicate WellFormed(u: Url) {
    && ValidScheme(u.scheme) && IsLower(u.scheme)
    && '?' !in u.path && '#' !in u.path
    && (u.query.Some? ==> '#' !in u.query.value)
    && match u.host
       case Some(h) =>
         && '/' !in h && '?' !in h && '#' !in h && IsLower(h)
         && (u.path == [] || u.path[0] == '/')
         && (IsSpecial(u.scheme) ==> h != [] && u.path != [])
       case None =>
         !IsSpecial(u.scheme) && !StartsWith(u.path, "//")
  }

  // ---------------------------------------------------------------------
  // Parsing and serialisation

  /** `new URL(s)`: None where the constructor throws. */
  function Parse(s: string): (r: Option<Url>)
    ensures ':' !in s ==> r.None?
    ensures r.Some? ==> r.value.scheme == Lower(SplitFirst(s, ':').0)
    ensures r.Some? && IsSpecial(r.value.scheme) ==>
              r.value.host.Some? && r.value.host.value != [] && r.value.path != []
  {
    match SplitFirst(s, ':')
    case (_, None) => None
    case (sch, Some(rest)) =>
      if !ValidScheme(sch) then None
      else
        var (beforeFrag, fragment) := SplitFirst(rest, '#');
        var (hier, query) := SplitFirst(beforeFrag, '?');
        ParseHier(Lower(sch), hier, query, fragment)
  }

  /** The URL once scheme, query and fragment are split off: "//" starts an authority,
      anything else is an opaque path, which special schemes do not allow. */
  function ParseHier(scheme: string, hier: string, query: Option<string>, fragment: Option<string>)
    : Option<Url>
  {
    if StartsWith(hier, "//") then
      var (auth, afterSlash) := SplitFirst(hier[2..], '/');
      var host := Lower(auth);
      var path := if afterSlash.Some? then "/" + afterSlash.value else "";
      if IsSpecial(scheme) && host == [] then None
      else Some(Url(scheme, Some(host), if IsSpecial(scheme) && path == [] then "/" else path,
                    query, fragment))
    else if IsSpecial(scheme) then None
    else Some(Url(scheme, None, hier, query, fragment))
  }

  /** Every URL the parser produces is well formed. */
  lemma ParseWellFormed(s: string)
    ensures Parse(s).Some? ==> WellFormed(Parse(s).value)
  {
    match SplitFirst(s, ':')
    case (_, None) =>
    case (sch, Some(rest)) =>
      if ValidScheme(sch) {
        var (beforeFrag, fragment) := SplitFirst(rest, '#');
        var (hier, query) := SplitFirst(beforeFrag, '?');
        assert beforeFrag == hier || beforeFrag == hier + ['?'] + query.value;
        assert fragment.None? ==> rest == beforeFrag;
        LowerIsLower(sch);
        ParseHierWellFormed(Lower(sch), hier, query, fragment);
      }
  }

  lemma ParseHierWellFormed(scheme: string, hier: string, query: Option<string>,
                            fragment: Option<string>)
    requires ValidScheme(scheme) && IsLower(scheme)
    requires '#' !in hier && '?' !in hier
    requires query.Some? ==> '#' !in query.value
    ensures ParseHier(scheme, hier, query, fragment).Some? ==>
              WellFormed(ParseHier(scheme, hier, query, fragment).value)
  {
    if StartsWith(hier, "//") {
      var (auth, afterSlash) := SplitFirst(hier[2..], '/');
      assert hier == "//" + hier[2..];
      assert afterSlash.None? ==> hier[2..] == auth;
      assert '#' !in auth && '?' !in auth;
      LowerIsLower(auth);
      LowerKeeps(auth, '/');
      LowerKeeps(auth, '?');
      LowerKeeps(auth, '#');
    }
  }

  /** The href of a URL (its serialisation). */
  function Serialize(u: Url): (r: string)
    ensures |u.scheme| < |r| && r[..|u.scheme|] == u.scheme && r[|u.scheme|] == ':'
    ensures u.fragment.Some? ==> '#' in r
  {
    u.scheme + ":" + Hier(u)
      + (if u.query.Some? then "?" + u.query.value else "")
      + (if u.fragment.Some? then "#" + u.fragment.value else "")
  }

  /** The authority-and-path part of the serialisation. */
  function Hier(u: Url): string {
    (if u.host.Some? then "//" + u.host.value else "") + u.path
  }

  /** The `protocol` getter: the scheme and a colon. */
  function Protocol(u: Url): string {
    u.scheme + ":"
  }

  /** The `hostname` getter: the host without a port; empty for URLs without a host. */
  function Hostname(u: Url): (h: string)
    ensures u.host.Some? ==> StartsWith(u.host.value, h) && ':' !in h
    ensures u.host.Some? ==> |h| == |u.host.value| || u.host.value[|h|] == ':'
    ensures u.host.None? ==> h == []
  {
    match u.host
    case None => []
    case Some(a) => SplitFirst(a, ':').0
  }

  /** Lower-casing never introduces the URL delimiters. */
  lemma LowerKeeps(s: string, c: char)
    requires c == '/' || c == '?' || c == '#'
    requires c !in s
    ensures c !in Lower(s)
  {
  }

  /** Query and fragment suffixes of the serialisation. */
  function QuerySuffix(u: Url): string {
    if u.query.Some? then "?" + u.query.value else ""
  }

  function FragmentSuffix(u: Url): string {
    if u.fragment.Some? then "#" + u.fragment.value else ""
  }

  /** Every well-formed URL is recovered by parsing its serialisation. */
  lemma ParseSerialize(u: Url)
    requires WellFormed(u)
    ensures Parse(Serialize(u)) == Some(u)
  {
    var hier := Hier(u);
    var beforeFrag := hier + QuerySuffix(u);
    var tail := beforeFrag + FragmentSuffix(u);
    assert Serialize(u) == u.scheme + [':'] + tail;
    SplitFirstJoin(u.scheme, ':', tail);
    LowerOfLower(u.scheme);
    SplitSuffixes(u);
    HierParses(u);
  }

  lemma SplitSuffixes(u: Url)
    requires WellFormed(u)
    ensures SplitFirst(Hier(u) + QuerySuffix(u) + FragmentSuffix(u), '#')
              == (Hier(u) + QuerySuffix(u), u.fragment)
    ensures SplitFirst(Hier(u) + QuerySuffix(u), '?') == (Hier(u), u.query)
  {
    var hier := Hier(u);
    var beforeFrag := hier + QuerySuffix(u);
    assert '#' !in hier && '?' !in hier;
    assert '#' !in beforeFrag;
    if u.fragment.None? {
      assert beforeFrag + FragmentSuffix(u) == beforeFrag;
    }
    if u.query.None? {
      assert beforeFrag == hier;
    }
    if u.fragment.Some? {
      assert beforeFrag + FragmentSuffix(u) == beforeFrag + ['#'] + u.fragment.value;
      SplitFirstJoin(beforeFrag, '#', u.fragment.value);
    }
    if u.query.Some? {
      assert beforeFrag == hier + ['?'] + u.query.value;
      SplitFirstJoin(hier, '?', u.query.value);
    }
  }

  lemma HierParses(u: Url)
    requires WellFormed(u)
    ensures ParseHier(u.scheme, Hier(u), u.query, u.fragment) == Some(u)
  {
    var hier := Hier(u);
    match u.host
    case None =>
      assert hier == u.path;
      assert !StartsWith(hier, "//");
    case Some(h) =>
      assert StartsWith(hier, "//");
      assert hier[2..] == h + u.path;
      LowerOfLower(h);
      if u.path == [] {
        assert hier[2..] == h;
      } else {
        assert u.path == "/" + u.path[1..];
        assert hier[2..] == h + ['/'] + u.path[1..];
        SplitFirstJoin(h, '/', u.path[1..]);
      }
  }

  // ---------------------------------------------------------------------
  // Query strings (URLSearchParams)

  /** The shape of every pair the query parser produces. */
  predicate ParamOk(p: Param) {
    '&' !in p.name && '=' !in p.name && '&' !in p.value && '#' !in p.name && '#' !in p.value
  }

  /** Decodes one non-empty `&`-separated piece: name before the first '=', value after it. */
  function DecodeParam(piece: string): (p: Param)
    ensures '=' in piece ==> p.name + "=" + p.value == piece
    ensures '=' !in piece ==> p == Param(piece, "")
    ensures '=' !in p.name
  {
    match SplitFirst(piece, '=')
    case (n, None) => Param(n, "")
    case (n, Some(v)) => Param(n, v)
  }

  /** The pairs of the non-empty pieces, in order. */
  function DecodePieces(pieces: seq<string>): (ps: seq<Param>)
    ensures |ps| <= |pieces|
    ensures forall i :: 0 <= i < |ps| ==> '=' !in ps[i].name
  {
    if pieces == [] then []
    else if pieces[0] == [] then DecodePieces(pieces[1..])
    else [DecodeParam(pieces[0])] + DecodePieces(pieces[1..])
  }

  /** The URLSearchParams list of a query string. */
  function ParseQuery(q: string): (ps: seq<Param>)
    ensures q == [] ==> ps == []
    ensures forall i :: 0 <= i < |ps| ==> '=' !in ps[i].name && '&' !in ps[i].name
  {
    assert q == [] ==> Split(q, '&') == [[]];
    NoAmpersandInPairs(Split(q, '&'));
    DecodePieces(Split(q, '&'))
  }

  lemma {:induction false} NoAmpersandInPairs(pieces: seq<string>)
    requires forall i :: 0 <= i < |pieces| ==> '&' !in pieces[i]
    ensures forall i :: 0 <= i < |DecodePieces(pieces)| ==> '&' !in DecodePieces(pieces)[i].name
  {
    if pieces != [] {
      NoAmpersandInPairs(pieces[1..]);
      if pieces[0] != [] {
        var p := DecodeParam(pieces[0]);
        if '=' in pieces[0] {
          assert pieces[0] == p.name + "=" + p.value;
        }
        assert '&' !in p.name;
      }
    }
  }

  /** The pairs parsed from a URL query (which has no '#') are all well shaped. */
  lemma ParseQueryOk(q: string)
    requires '#' !in q
    ensures forall i :: 0 <= i < |ParseQuery(q)| ==> ParamOk(ParseQuery(q)[i])
  {
    PiecesOk(Split(q, '&'), q);
  }

  lemma {:induction false} PiecesOk(pieces: seq<string>, q: string)
    requires Join(pieces, '&') == q
    requires '#' !in q
    requires forall i :: 0 <= i < |pieces| ==> '&' !in pieces[i]
    ensures forall i :: 0 <= i < |DecodePieces(pieces)| ==> ParamOk(DecodePieces(pieces)[i])
    decreases |pieces|
  {
    if pieces != [] {
      assert '#' !in pieces[0] by {
        if |pieces| > 1 {
          assert q == pieces[0] + ['&'] + Join(pieces[1..], '&');
        }
      }
      assert '#' !in Join(pieces[1..], '&') by {
        if |pieces| > 1 {
          assert q == pieces[0] + ['&'] + Join(pieces[1..], '&');
        }
      }
      PiecesOk(pieces[1..], Join(pieces[1..], '&'));
      if pieces[0] != [] {
        var p := DecodeParam(pieces[0]);
        assert ParamOk(p) by {
          if '=' in pieces[0] {
            assert pieces[0] == p.name + "=" + p.value;
          }
        }
      }
    }
  }

  function EncodeParam(p: Param): string {
    p.name + "=" + p.value
  }

  function EncodeAll(ps: seq<Param>): (pieces: seq<string>)
    ensures |pieces| == |ps|
    ensures forall i :: 0 <= i < |ps| ==> pieces[i] == EncodeParam(ps[i])
  {
    if ps == [] then [] else [EncodeParam(ps[0])] + EncodeAll(ps[1..])
  }

  /** The application/x-www-form-urlencoded serialisation of a pair list. */
  function SerializeQuery(ps: seq<Param>): (q: string)
    ensures ps == [] <==> q == []
    ensures |ps| == 1 ==> q == ps[0].name + "=" + ps[0].value
  {
    Join(EncodeAll(ps), '&')
  }

  /** Serialising a parsed list of pairs and parsing it again gives the same list. */
  lemma ParseSerializeQuery(ps: seq<Param>)
    requires forall i :: 0 <= i < |ps| ==> ParamOk(ps[i])
    ensures ParseQuery(SerializeQuery(ps)) == ps
  {
    var pieces := EncodeAll(ps);
    if ps != [] {
      assert forall i :: 0 <= i < |pieces| ==> '&' !in pieces[i] by {
        forall i | 0 <= i < |pieces| ensures '&' !in pieces[i] {
          assert pieces[i] == ps[i].name + "=" + ps[i].value;
        }
      }
      SplitJoin(pieces, '&');
      DecodeEncoded(ps);
    }
  }

  lemma {:induction false} DecodeEncoded(ps: seq<Param>)
    requires forall i :: 0 <= i < |ps| ==> ParamOk(ps[i])
    ensures DecodePieces(EncodeAll(ps)) == ps
  {
    if ps != [] {
      var pieces := EncodeAll(ps);
      DecodeOne(ps[0]);
      assert pieces[0] != [] && DecodeParam(pieces[0]) == ps[0];
      assert pieces[1..] == EncodeAll(ps[1..]);
      DecodeEncoded(ps[1..]);
      assert DecodePieces(pieces) == [ps[0]] + DecodePieces(pieces[1..]);
    }
  }

  /** One encoded pair decodes back to itself. */
  lemma DecodeOne(p: Param)
    requires ParamOk(p)
    ensures EncodeParam(p) != [] && DecodeParam(EncodeParam(p)) == p
  {
    assert EncodeParam(p) == p.name + ['='] + p.value;
    SplitFirstJoin(p.name, '=', p.value);
  }

  /** A serialised list of well-shaped pairs has no '#', so it can stand as a URL query. */
  lemma SerializeQueryNoHash(ps: seq<Param>)
    requires forall i :: 0 <= i < |ps| ==> ParamOk(ps[i])
    ensures '#' !in SerializeQuery(ps)
  {
    JoinNoHash(EncodeAll(ps));
  }

  lemma {:induction false} JoinNoHash(pieces: seq<string>)
    requires forall i :: 0 <= i < |pieces| ==> '#' !in pieces[i]
    ensures '#' !in Join(pieces, '&')
  {
    if |pieces| > 1 {
      JoinNoHash(pieces[1..]);
    }
  }

  // ---------------------------------------------------------------------
  // Relative references

  /** The base path up to and including its last '/'. */
  function Directory(path: string): (d: string)
    ensures d == "/" || (|d| <= |path| && d == path[..|d|])
    ensures d != [] && d[|d| - 1] == '/'
  {
    if path == [] then "/"
    else if path[|path| - 1] == '/' then path
    else
      var d := Directory(path[..|path| - 1]);
      assert d != "/" ==> d == path[..|path| - 1][..|d|] == path[..|d|];
      d
  }

  /** `new URL(ref, base)`: the base must parse; an absolute `ref` stands alone; otherwise
      `ref` replaces the base's authority, path, query or fragment depending on how it begins. */
  function Resolve(ref: string, base: string): (r: Option<Url>)
    ensures Parse(base).None? ==> r.None?
    ensures Parse(base).Some? && Parse(ref).Some? ==> r == Parse(ref)
  {
    match Parse(base)
    case None => None
    case Some(b) =>
      if Parse(ref).Some? then Parse(ref)
      else
        var (beforeFrag, fragment) := SplitFirst(ref, '#');
        var (refPath, query) := SplitFirst(beforeFrag, '?');
        if b.host.None? then
          if StartsWith(ref, "#") then Some(b.(fragment := fragment)) else None
        else if StartsWith(refPath, "//") then Parse(b.scheme + ":" + ref)
        else if StartsWith(refPath, "/") then Some(Url(b.scheme, b.host, refPath, query, fragment))
        else if refPath == [] then
          Some(Url(b.scheme, b.host, b.path, if query.Some? then query else b.query, fragment))
        else Some(Url(b.scheme, b.host, Directory(b.path) + refPath, query, fragment))
  }

  /** A path-absolute reference keeps the base's scheme and host and replaces its path,
      dropping the base's query and fragment. */
  lemma ResolvePathAbsolute(ref: string, base: string, b: Url)
    requires Parse(base) == Some(b) && b.host.Some?
    requires StartsWith(ref, "/") && !StartsWith(ref, "//")
    requires ':' !in ref && '?' !in ref && '#' !in ref
    ensures Resolve(ref, base) == Some(Url(b.scheme, b.host, ref, None, None))
  {
  }

  /** The page address used in the worked examples parses into its parts. */
  lemma ShopBaseParses(base: string, b: Url)
    requires b == Url("https", Some("shop.example"), "/p/1", None, None)
    requires base == "https://shop.example/p/1"
    ensures Parse(base) == Some(b)
  {
    ShopUrlWellFormed(b);
    ShopHref(b, base);
    ParseSerialize(b);
  }

  lemma ShopUrlWellFormed(b: Url)
    requires b == Url("https", Some("shop.example"), "/p/1", None, None)
    ensures WellFormed(b)
  {
    assert IsLower(b.scheme);
    assert IsLower(b.host.value);
    assert ValidScheme(b.scheme);
    assert IsSpecial(b.scheme);
  }

  lemma ShopHref(b: Url, base: string)
    requires b == Url("https", Some("shop.example"), "/p/1", None, None)
    requires base == "https://shop.example/p/1"
    ensures Serialize(b) == base
  {
  }
}

=== FILE: wrappers.dfy ===
/** Option, the model's stand-in for JavaScript's `null`/`undefined` versus a present value. */
module Wrappers {

  datatype Option<+T> = None | Some(value: T) {

    /** Returns the value in Some, or `default` for None (JavaScript's `??`). */
    function GetOr(default: T): T {
      match this
      case Some(v) => v
      case None => default
    }
  }
}
